=== FILE: README.md ===
# SocialCentral server core in Dafny

A functional model of the Python/FastAPI back end of SocialCentral (SocialSync). The server
exists twice, as a SQLAlchemy version (`server/routes.py`, `server/database.py`,
`server/main.py`, `server/websocket_manager.py`) and as an asyncpg version
(`server/fastapi_server.py`). The model covers the following parts:

- the WebSocket broadcast registry and its progress store (`websocket_manager.dfy`);
- the database-URL rewriting (`database_url.dfy`);
- the tables, the connection-pool counter and the start-up seeding (`tables.dfy`);
- login and signup (`auth.dfy`);
- the workflow handlers: deleting, checkpoint extraction, model synchronisation and the
  fallbacks for JSON columns (`workflows.dfy`);
- the analytics stub (`analytics.dfy`);
- the request log line and the global exception handler (`middleware.dfy`).

Shared pieces live in separate modules:

- `Option`/`Result` (`wrappers.dfy`);
- string functions (`strings.dfy`);
- a parsed-JSON datatype together with Python's `in`, indexing and iteration on such values
  (`json.dfy`). With these, `'inputs' in node` behaves as Python does on strings, lists, dicts
  and scalars.

Everything outside Python is a parameter:

- a socket send is one boolean outcome per attempt;
- `json.loads` is `parse: string -> Option<Json>`, where `None` means it raised;
- `json.dumps` is `dumps`;
- bcrypt is `checkpw` and `hashpw`, where `checkpw` answers `None` when it raises on a stored
  hash it cannot parse;
- database-assigned ids are `newId` and `adminId`;
- the clock is a day-label function and an elapsed-milliseconds number;
- SQL statements are functions on sequences of rows.

A connection pool is a counter of connections in use. The handlers `login`, `signup`,
`delete_workflow` and `sync_workflow_models` of `fastapi_server.py` are proved to return that
counter to its previous value; `init_database` is proved not to on its error paths after the connection is acquired.

Behaviour worth noting:

- `connect` appends a socket even when it is already registered; it is not idempotent.
- `send_personal_message` swallows a failed send and unregisters the socket; it reports nothing
  to the caller.
- The analytics `totalUsage` is the constant 350, although the seven daily usages sum to 490
  (`Analytics.TotalUsageIsNotTheDailySum`).
- The administrator seeded by `database.py` stores the placeholder hash `$2b$10$example_hash`,
  which is too short to hold a bcrypt salt, so logging in as that administrator raises inside
  `checkpw` and is answered with a 500 (`Auth.SeededAdminLoginFails`).

## Model

| member | source | states |
|---|---|---|
| WebSocketManager.NewManager | server/websocket_manager.py:7-9 | a new manager has no connections and reports the empty object for every generation |
| WebSocketManager.Connect | server/websocket_manager.py:11-14 | the socket is appended at the end even if already present: one more entry, the old list is a prefix, its count rises by one, progress untouched |
| WebSocketManager.Disconnect | server/websocket_manager.py:16-19 | an unregistered socket leaves the manager unchanged; otherwise exactly one occurrence (the first) is removed and all other entries keep their order |
| WebSocketManager.RemoveFirstAtFirstIndex | server/websocket_manager.py:17-18 | `list.remove` deletes the entry at the first index holding the socket and nothing else |
| WebSocketManager.RemoveFirstMultiset | server/websocket_manager.py:17-18 | as a multiset, removing a registered socket takes away exactly one copy of it |
| WebSocketManager.DisconnectAfterConnect | server/websocket_manager.py:11-19 | disconnecting a socket just connected undoes the connect when it was absent, and otherwise removes its earlier registration instead |
| WebSocketManager.SendPersonalMessage | server/websocket_manager.py:21-26 | exactly one attempt to send the text to that socket; a successful send changes nothing, a failed one is swallowed and unregisters that socket |
| WebSocketManager.SendLoop | server/websocket_manager.py:29-35 | exactly one send per registered entry in list order, failures do not stop later sends, and the failed sockets plus the survivors are the registry as a multiset |
| WebSocketManager.DisconnectEach | server/websocket_manager.py:38-39 | the pruning loop removes at most one entry per failed send, and nothing when no send failed |
| WebSocketManager.DisconnectEachSubMultiset | server/websocket_manager.py:38-39 | the pruning loop never adds a socket: its result is a sub-multiset of the registry, whatever sockets are asked to go |
| WebSocketManager.DisconnectEachMultiset | server/websocket_manager.py:38-39 | disconnecting each failed socket removes exactly the failed sockets from the registry's multiset |
| WebSocketManager.Broadcast | server/websocket_manager.py:28-39 | one send per entry in order; afterwards the registry holds exactly the sockets whose send succeeded, counted with multiplicity; progress untouched |
| WebSocketManager.BroadcastDistinct | server/websocket_manager.py:28-39 | with distinct sockets, after a broadcast the registry is exactly the survivors in their original order, still distinct |
| WebSocketManager.BroadcastScenario | server/websocket_manager.py:28-39 | three distinct sockets where the middle send fails: three sends in order, and the first and last sockets remain |
| WebSocketManager.BroadcastReordersDuplicates | server/websocket_manager.py:38-39 | with a socket registered twice whose second send fails, pruning removes its first occurrence, so the survivors come out reordered |
| WebSocketManager.ProgressMessage | server/websocket_manager.py:43-47 | the message is an object with exactly the keys type = "progress", generationId and data |
| WebSocketManager.BroadcastJson | server/websocket_manager.py:48 | one send per registered socket in registry order, each carrying the serialised message; the registry is pruned as by a broadcast and the progress store is untouched |
| WebSocketManager.BroadcastProgress | server/websocket_manager.py:41-48 | every send carries the serialised progress message, and the registry is pruned as by a broadcast |
| WebSocketManager.SetupProgressMessage | server/websocket_manager.py:52-59 | the message is an object with exactly the six keys type = "setup_progress", serverId, step, totalSteps, message and timestamp |
| WebSocketManager.BroadcastSetupProgress | server/websocket_manager.py:50-60 | one send per registered socket in registry order, each carrying the serialised setup message; the registry is pruned as by a broadcast and the progress store is untouched |
| WebSocketManager.GetProgress | server/websocket_manager.py:66-68 | a stored id yields its payload; an unknown id yields the empty object |
| WebSocketManager.StoreProgress | server/websocket_manager.py:62-64 | the id now yields the new payload, its key is added, every other id yields what it did before, and the registry is untouched |
| WebSocketManager.ClearProgress | server/websocket_manager.py:74-77 | only that id is removed, other ids are unchanged, and an absent id is a no-op |
| WebSocketManager.LastWriteWins | server/websocket_manager.py:62-77 | of two stores for one generation the later is what `get_progress` reports, and after a clear it reports the empty object |
| DatabaseUrl.ToAsyncScheme | server/database.py:11-12 | a `postgresql://` URL gets the `postgresql+asyncpg://` scheme with the same remainder; any other URL is unchanged |
| DatabaseUrl.StripSslMode | server/database.py:15-16 | the URL is cut just before the first `?sslmode=`, so the result contains none; without one it is unchanged |
| DatabaseUrl.Normalize | server/database.py:11-16 | the URL never carries `?sslmode=` afterwards; a `postgresql://` URL comes out with the asyncpg scheme, any other URL is exactly its text before the first `?sslmode=` |
| DatabaseUrl.AsyncpgUrl | server/fastapi_server.py:30 | converting back only shortens the normalised URL, leaves it unchanged when it has no `postgresql+asyncpg://`, and gives a URL that starts with the asyncpg scheme the plain `postgresql://` one |
| DatabaseUrl.NormalizePostgres | server/database.py:11-16 | a `postgresql://` URL becomes the asyncpg scheme followed by its stripped remainder |
| DatabaseUrl.NormalizeIdempotent | server/database.py:11-16 | the normalised URL has no `?sslmode=`, and normalising it again changes nothing |
| DatabaseUrl.AsyncpgUrlIsStrippedSetting | server/fastapi_server.py:23-30 | for a `postgresql://` URL with no other asyncpg scheme inside, converting back yields the input cut at its first `?sslmode=` |
| DatabaseUrl.AsyncpgUrlOfAsyncSetting | server/fastapi_server.py:23-30 | a setting already written as `postgresql+asyncpg://` (with no second asyncpg scheme) reaches asyncpg as `postgresql://` followed by the remainder cut at its first `?sslmode=` |
| DatabaseUrl.DefaultUrlRoundTrip | server/fastapi_server.py:23-30 | with `DATABASE_URL` unset, the engine gets `postgresql+asyncpg://localhost/socialsync` and asyncpg gets `postgresql://localhost/socialsync` unchanged |
| Tables.Acquire | server/fastapi_server.py:99-103 | acquiring creates the pool if needed and puts one more connection in use |
| Tables.Release | server/fastapi_server.py:105-106 | releasing returns one connection to the pool |
| Tables.FirstRequestCreatesPool | server/fastapi_server.py:33-106 | there is no pool before the first request; the first acquisition creates it with one connection in use, and releasing that connection leaves none in use |
| Tables.SeedDefaults | server/database.py:61-86 | on an empty user table exactly one admin user and the youtube platform are added; otherwise, or when a statement fails and the session rolls back, nothing changes |
| Tables.SeedDefaultsOnce | server/database.py:68 | seeding after a successful seed changes nothing, since the user table is no longer empty |
| Tables.InitDatabaseAsWritten | server/fastapi_server.py:108-139 | per failure point: no acquisition when the pool fails; a failing ping or count keeps the tables and the connection; a failing user insert keeps the tables; a failing platform insert keeps the committed admin row without the platform; without a fault an empty user table gets the admin and youtube and the connection is released |
| Tables.InitDatabaseLeaks | server/fastapi_server.py:108-139 | a failure after the acquisition leaves one more connection in use for good |
| Tables.InitDatabase | server/fastapi_server.py:108-139 | with the release in a `finally`, the in-use count is restored on every path; the seeding effect is the same as the code's |
| Tables.FindFirst | server/routes.py:333-337 | the row found matches and no earlier row does; none is found exactly when no row matches |
| Auth.FindByEmail | server/fastapi_server.py:186 | the row found has that email, and none is found exactly when no user has it |
| Auth.Login | server/routes.py:62-96 | success exactly when a user with that email exists and the password checks against its hash; a hash `checkpw` cannot parse gives the 500 of the global handler; every other failure is the same 401 "Invalid email or password"; a success carries the found row's id, email, username and names |
| Auth.SeededAdminLoginFails | server/database.py:68-73 | with a bcrypt that rejects hashes too short to hold a salt, logging in as the seeded administrator is a 500 whatever the password |
| Auth.LoginFailuresIndistinguishable | server/routes.py:71-85 | an unknown email and a wrong password produce identical responses |
| Auth.FastapiLogin | server/fastapi_server.py:181-211 | the same outcome as the routes version, and the connection is released on success, on the 401 and on the 500 |
| Auth.ValidateSignup | server/routes.py:101-111 | a mismatch is reported before the terms check; the request passes exactly when passwords match and the terms are accepted |
| Auth.UsernameOf | server/routes.py:136 | the username is the prefix of the email before its first `@` (the whole email when there is none) |
| Auth.CreateUser | server/routes.py:113-143 | a known email gives 409 and no change; otherwise exactly one user row is appended with the derived username and the hash of the password |
| Auth.Signup | server/routes.py:98-161 | a rejected request touches no table; an accepted one is the user creation, and the response carries the email and the derived username |
| Auth.FastapiSignup | server/fastapi_server.py:213-257 | the same outcome as the routes version; a rejected request acquires no connection, an accepted one releases the connection it took, on the 409 too |
| Auth.SignupKeepsEmailsUnique | server/routes.py:113-122 | if the users' emails are distinct, they are still distinct after a signup |
| Workflows.DeleteStatements | server/routes.py:310-319 | afterwards no model and no workflow row has the id, every other row is kept, no row is added (every remaining row was already there), users and platforms are untouched, and the count is zero exactly when no workflow had the id |
| Workflows.DeleteWorkflow | server/routes.py:307-328 | 404 exactly when no workflow had the id; the workflow row and its models are deleted in either case, every other workflow and model is kept, no row is added, and users and platforms are untouched |
| Workflows.FastapiDeleteWorkflow | server/fastapi_server.py:384-402 | deciding on the status string "DELETE 0" gives the same outcome as deciding on the row count, and the connection is released |
| Workflows.NodeModels | server/routes.py:356-362 | a node object without `inputs` yields nothing; one whose inputs object names `ckpt_name` yields exactly that checkpoint; a scalar node raises |
| Workflows.ExtractNodes | server/routes.py:355-362 | at most one record per node, each of type "checkpoint" and required |
| Workflows.ExtractNodesAppend | server/fastapi_server.py:424-431 | extraction over concatenated nodes is the extraction of each part in node order, and the earlier error wins |
| Workflows.ExtractModels | server/fastapi_server.py:423-431 | no `nodes` key gives no records; a `nodes` list gives the node-by-node extraction; a scalar document raises |
| Workflows.InsertModel | server/routes.py:366-371 | a row is appended only for a new (workflow, name) key and carries the record's type and required flag; the name is present afterwards and keys stay unique |
| Workflows.InsertModels | server/routes.py:365-378 | existing rows stay in place, every found name ends up present for the workflow, each new row is the row of a found record whose key was absent before, and the (workflow, name) key stays unique |
| Workflows.FindWorkflow | server/routes.py:333-343 | the row found has that id, and none is found exactly when no workflow has it |
| Workflows.SyncFromText | server/routes.py:348-392 | success exactly when there is text, it parses and the extraction raises nothing; then `modelsFound` equals the number of records, the records are the extraction of the parsed document, and they are inserted; any failure is the 500 with the tables unchanged |
| Workflows.TextOrEmptyObject | server/fastapi_server.py:419 | a NULL or empty column becomes `'{}'`; other text is kept |
| Workflows.FastapiSync | server/fastapi_server.py:404-453 | an unknown id gives 404; otherwise the sync runs on the column text defaulted to `'{}'`; the connection is released |
| Workflows.FastapiSyncOfEmptyWorkflow | server/fastapi_server.py:419-445 | a workflow with NULL or empty JSON syncs zero models and changes no table |
| Workflows.RoutesSyncAsWritten | server/routes.py:330-392 | an unknown id gives 404; a NULL column reaches the parser as no text at all |
| Workflows.RoutesSyncRejectsNullJson | server/routes.py:349 | a workflow whose JSON column is NULL always gets the 500 |
| Workflows.RoutesSync | server/routes.py:330-392 | with the column read as `workflow_json or '{}'` (NULL and empty text both default), the routes sync agrees with the asyncpg version on every input, and a NULL or empty workflow syncs zero models |
| Workflows.ParseTextField | server/routes.py:299-303 | a string field is replaced by its parse, or by `[]` when parsing fails; a non-string or missing field leaves the row unchanged; other keys are untouched |
| Workflows.WorkflowsWithModels | server/routes.py:295-305 | every row keeps its keys and other columns; a `models` string is replaced by its parse, or by `[]` when it does not parse; a row whose `models` is not a string is unchanged |
| Workflows.ComfyGenerations | server/fastapi_server.py:469-479 | every row keeps its keys and other columns; an `image_urls` string is replaced by its parse, or by `[]` when it does not parse; a row without a string `image_urls` is unchanged |
| Analytics.ServerAnalyticsReport | server/routes.py:247-264 | seven entries, oldest first and today last, with servers 1, 1, 1, 2, 3, 4, 5 and usage 40, 50, …, 100; both series never decrease and stay within 1..5 and 10..100; fixed totals 5, 3 and 350 |
| Analytics.TotalUsageIsNotTheDailySum | server/routes.py:250-263 | the daily usages sum to 490, so the reported total of 350 is not their sum |
| Middleware.ShouldLogPrefix | server/main.py:67 | the filter is a plain prefix test: anything after `/api` is logged, `/apiary` included, and nothing shorter than the prefix |
| Middleware.TruncateBody | server/main.py:74-75 | a body of at most 80 characters is kept; a longer one becomes its first 79 characters plus an ellipsis, 80 in all |
| Middleware.TruncateBodyIdempotent | server/main.py:74-75 | truncating a truncated body changes nothing |
| Middleware.LogLine | server/main.py:67-81 | a line exactly for `/api` paths; the " :: body" suffix appears only for a non-empty decodable body, truncated |
| Middleware.FastapiLogLine | server/fastapi_server.py:174-176 | the asyncpg server's line is main.py's line for a response without a body, and differs whenever there is body text |
| Middleware.GlobalExceptionHandler | server/main.py:102-110 | the status is the exception's `status_code` or 500; the message is its text, or "Internal Server Error" when that is empty, so it is never empty |
| Strings.ReplaceFirst | server/database.py:12 | Python's `replace(pat, rep, 1)`: no change without an occurrence; otherwise the text before the first occurrence is kept, followed by `rep`, and the length changes by `|rep| - |pat|`; a text starting with `pat` becomes `rep` plus the rest |
| Strings.ReplaceAll | server/fastapi_server.py:30 | Python's `replace(pat, rep)`: a text starting with `pat` starts with `rep` afterwards, a text shorter than `pat` is unchanged, and a replacement no longer than the pattern never lengthens the text |
| Strings.ReplaceAllAbsent | server/fastapi_server.py:30 | `replace` leaves a text without the pattern unchanged |
| Strings.IndexOf | server/database.py:16 | the first position where the separator occurs, or none when it does not occur |
| Strings.SplitHead | server/routes.py:136 | the first piece of a split is a prefix without the separator that ends where the separator first occurs, or the whole text |
| Strings.NatToStringZero | server/fastapi_server.py:394 | a row count renders as "0" exactly when it is zero |
| Json.PyContains | server/routes.py:354-356 | Python's `in`: substring on a string, membership on a list, key on a dict, a TypeError otherwise |
| Json.PyIndex | server/routes.py:357 | Python's `value[key]`: succeeds exactly on an object that has the key, giving that key's value; a KeyError for a missing key and a TypeError on anything else |
| Json.PyIter | server/routes.py:355 | Python's `for item in value`: a list's items, a dict's keys in order, a string's one-character strings, and a TypeError exactly on null, booleans and numbers |

## Left out

- Pool internals (creation sizes, pre-ping, recycle, blocking when exhausted, closing at
  shutdown) belong to asyncpg and SQLAlchemy; the pool is only an in-use counter.
- Concurrency: no interleaving between the awaits of `broadcast` or between handlers. A
  broadcast is modelled as one atomic step.
- The fastapi_server.py copy of `WebSocketManager` (lines 36-60) has the same `connect` and
  `disconnect` as websocket_manager.py and is covered by the same functions; its log texts
  differ and are not modelled. Its `broadcast` uses a bare `except:` (line 56), which also
  catches `BaseException` such as `asyncio.CancelledError` and prints nothing, where
  websocket_manager.py:33 catches only `Exception`; a send outcome is a boolean in both, so the
  kind of exception is not modelled.
- WebSocketManager.Connect: `await websocket.accept()` can raise, in which case nothing is
  appended; the model assumes the handshake succeeds.
- `get_all_progress` returns the internal map itself; aliasing is not modelled.
- Console output (`print`) and log prefixes other than the request log line.
- Timestamps: `created_at`/`updated_at`, the `strftime` dates (a day-label parameter), the
  `time.time()` measurement (an elapsed-milliseconds parameter) and the event-loop timestamp
  of the setup message (a parameter).
- `json.dumps` output, bcrypt hashing and pydantic validation (including `EmailStr`) are
  parameters or left out.
- The plain listing handlers (`get_stats`, content, platforms, accounts, vast servers, workflow
  lists) are single SQL reads with no rule of their own.
- fastapi_server.py's `get_workflows_with_models` returns rows as they come, with no fallback.
- The health check, CORS, the WebSocket echo loop, the import fallback in main.py and the
  launcher scripts.
- Workflows.SyncFromText: the text of the Python exception after "Failed to sync models: "
  is not modelled, and database errors during the inserts are not modelled.
- Auth.SeededAdminLoginFails: bcrypt's rule for a parsable hash is reduced to one necessary
  condition, a length of at least 29 (the `$2b$NN$` header and a 22-character salt), and the
  text of its `ValueError` is taken to be "Invalid salt".
- Auth.Signup: the 500 "Failed to create user" of routes.py (an insert that returns no row) is
  not modelled; the insert always succeeds.
- Auth.CreateUser: a unique constraint the database may put on `users.email` is not
  modelled; the handler's own email lookup is the only guard.
- Middleware.LogLine: the elapsed time is given in whole milliseconds; the float computation
  `int(process_time * 1000)` is not modelled.
- Numbers in JSON are integers; floating point is not modelled.

## Findings

| source | as written | input that shows it | evidently intended | confidence | as-written member | corrected member |
|---|---|---|---|---|---|---|
| server/fastapi_server.py:108-139 | `init_database` releases its connection only at the end of the successful path; the `except` swallows the error without releasing | any exception after the acquisition, e.g. `SELECT 1` failing | release in a `finally`, as every handler of the file does | not executed | Tables.InitDatabaseLeaks | Tables.InitDatabase |
| server/routes.py:349 | `workflow.get('workflow_json', '{}')` defaults only a missing key, but the column is always present, so a NULL value reaches `json.loads` and the sync answers 500 | a workflow row whose `workflow_json` is NULL | the column read as `workflow_json or '{}'`, as fastapi_server.py:419 does, so NULL (and the empty text, which `json.loads` would also reject) gives zero models | not executed | Workflows.RoutesSyncRejectsNullJson | Workflows.RoutesSync |

=== FILE: analytics.dfy ===
/** The server-analytics stub (`get_server_analytics`, identical in both copies): seven days of
    fixed sample figures, newest computed first and reported oldest first. The clock is left
    out: `dayLabel(i)` is the `"%b %d"` text of the day `i` days before now. */
module Analytics {
  datatype DailyUsage = DailyUsage(date: string, servers: int, usage: int)

  datatype ServerAnalytics = ServerAnalytics(
    dailyUsage: seq<DailyUsage>,
    totalServers: int,
    activeServers: int,
    totalUsage: int)

  const Days: nat := 7

  function Max(a: int, b: int): int {
    if a < b then b else a
  }

  /** The entry appended on iteration `i` of the loop. */
  function DayEntry(i: nat, dayLabel: nat -> string): DailyUsage {
    DailyUsage(dayLabel(i), Max(1, 5 - i), Max(10, 100 - i * 10))
  }

  function Reverse<T>(s: seq<T>): (r: seq<T>)
    ensures |r| == |s|
    ensures forall i :: 0 <= i < |s| ==> r[i] == s[|s| - 1 - i]
  {
    if s == [] then [] else Reverse(s[1..]) + [s[0]]
  }

  /** The report: seven entries in chronological order (today last) with the sample figures of
      each day, both series never decreasing over time and within their floors and ceilings,
      and the fixed totals. */
  function ServerAnalyticsReport(dayLabel: nat -> string): (r: ServerAnalytics)
    ensures |r.dailyUsage| == Days
    ensures forall k :: 0 <= k < Days ==> r.dailyUsage[k].date == dayLabel(Days - 1 - k)
    ensures forall j, k :: 0 <= j <= k < Days ==>
              r.dailyUsage[j].servers <= r.dailyUsage[k].servers && r.dailyUsage[j].usage <= r.dailyUsage[k].usage
    ensures forall k :: 0 <= k < Days ==>
              1 <= r.dailyUsage[k].servers <= 5 && 10 <= r.dailyUsage[k].usage <= 100
    ensures forall k :: 0 <= k < Days ==>
              r.dailyUsage[k].servers == [1, 1, 1, 2, 3, 4, 5][k] && r.dailyUsage[k].usage == 40 + 10 * k
    ensures r.dailyUsage[Days - 1] == DailyUsage(dayLabel(0), 5, 100)
    ensures r.totalServers == 5 && r.activeServers == 3 && r.totalUsage == 350
  {
    var daily := seq(Days, i requires 0 <= i < Days => DayEntry(i, dayLabel));
    ServerAnalytics(Reverse(daily), 5, 3, 350)
  }

  function UsageSum(entries: seq<DailyUsage>): int {
    if entries == [] then 0 else entries[0].usage + UsageSum(entries[1..])
  }

  /** The reported `totalUsage` is a constant, not the sum of the daily figures (which is 490). */
  lemma {:induction false} TotalUsageIsNotTheDailySum(dayLabel: nat -> string)
    ensures UsageSum(ServerAnalyticsReport(dayLabel).dailyUsage) == 490
    ensures ServerAnalyticsReport(dayLabel).totalUsage != UsageSum(ServerAnalyticsReport(dayLabel).dailyUsage)
  {
    SumOfWeek(ServerAnalyticsReport(dayLabel).dailyUsage);
  }

  /** Seven days rising from 40 by 10 a day add up to 490. */
  lemma {:induction false} SumOfWeek(d: seq<DailyUsage>)
    requires |d| == 7
    requires forall k :: 0 <= k < 7 ==> d[k].usage == 40 + 10 * k
    ensures UsageSum(d) == 490
  {
    assert d[6..] == [d[6]] + d[7..];
    assert UsageSum(d[6..]) == 100;
    assert d[5..] == [d[5]] + d[6..];
    assert UsageSum(d[5..]) == 190;
    assert d[4..] == [d[4]] + d[5..];
    assert UsageSum(d[4..]) == 270;
    assert d[3..] == [d[3]] + d[4..];
    assert UsageSum(d[3..]) == 340;
    assert d[2..] == [d[2]] + d[3..];
    assert UsageSum(d[2..]) == 400;
    assert d[1..] == [d[1]] + d[2..];
    assert UsageSum(d[1..]) == 450;
  }
}

=== FILE: auth.dfy ===
/** The login and signup handlers of server/routes.py and server/fastapi_server.py.
    bcrypt is an oracle: `checkpw(password, hash)` answers `None` when it raises `ValueError`
    on a stored hash it cannot parse, and `hashpw(password)` keeps the random salt inside it.
    E-mail validation by pydantic happens before the handlers run and is not modelled. */
module Auth {
  import opened Wrappers
  import opened Strings
  import opened Tables

  datatype LoginRequest = LoginRequest(email: string, password: string)

  datatype SignupRequest = SignupRequest(firstName: string, lastName: string, email: string,
                                         password: string, confirmPassword: string,
                                         agreeToTerms: bool)

  /** The user data returned to the client: the row without its password hash (timestamps are
      not modelled). */
  datatype UserResponse = UserResponse(id: int, email: string, username: string,
                                       firstName: string, lastName: string)

  const InvalidCredentials: HttpError := HttpError(401, "Invalid email or password")
  const PasswordMismatch: HttpError := HttpError(400, "Passwords don't match")
  const TermsNotAccepted: HttpError := HttpError(400, "Must agree to terms")
  const EmailTaken: HttpError := HttpError(409, "User with this email already exists")

  function ToResponse(u: User): UserResponse {
    UserResponse(u.id, u.email, u.username, u.firstName, u.lastName)
  }

  /** `SELECT ... WHERE email = $1` followed by `fetchone`: the first matching row. */
  function FindByEmail(users: seq<User>, email: string): (r: Option<User>)
    ensures r.Some? ==> r.value in users && r.value.email == email
    ensures r.None? <==> forall i :: 0 <= i < |users| ==> users[i].email != email
    ensures r.Some? ==> exists i :: 0 <= i < |users| && users[i] == r.value && email !in EmailsOf(users[..i])
  {
    FindFirst(users, (u: User) => u.email == email)
  }

  /** The e-mails of a run of user rows, in order. */
  function EmailsOf(users: seq<User>): seq<string> {
    seq(|users|, i requires 0 <= i < |users| => users[i].email)
  }

  /** bcrypt's error for a stored hash without a salt it can parse; the global exception
      handler turns the `ValueError` into a 500 carrying that text. */
  const MalformedHash: HttpError := HttpError(500, "Invalid salt")

  /** A bcrypt hash is the 7-character `$2b$NN$` header followed by a 22-character salt (and
      the digest), so nothing shorter carries a salt. */
  const MinHashLength: nat := 29

  /** `login`: an unknown e-mail and a wrong password raise the same 401; a stored hash bcrypt
      cannot parse makes `checkpw` raise, which surfaces as a 500; otherwise the matching user
      is returned: its id, e-mail, username and names. The tables are only read. */
  function Login(db: Db, req: LoginRequest, checkpw: (string, string) -> Option<bool>): (r: Reply<UserResponse>)
    ensures r.Err? ==> r.error == InvalidCredentials || r.error == MalformedHash
    ensures r.Ok? <==>
              exists u :: FindByEmail(db.users, req.email) == Some(u) && checkpw(req.password, u.passwordHash) == Some(true)
    ensures r == Err(MalformedHash) <==>
              exists u :: FindByEmail(db.users, req.email) == Some(u) && checkpw(req.password, u.passwordHash).None?
    ensures r.Ok? ==> r.value.email == req.email
    ensures r.Ok? ==> FindByEmail(db.users, req.email).Some?
                      && r.value == ToResponse(FindByEmail(db.users, req.email).value)
  {
    match FindByEmail(db.users, req.email)
    case None => Err(InvalidCredentials)
    case Some(u) =>
      match checkpw(req.password, u.passwordHash)
      case None => Err(MalformedHash)
      case Some(ok) => if ok then Ok(ToResponse(u)) else Err(InvalidCredentials)
  }

  /** A client cannot tell an unregistered e-mail from a wrong password. */
  lemma {:induction false} LoginFailuresIndistinguishable(db: Db, unknown: LoginRequest, wrong: LoginRequest,
                                       checkpw: (string, string) -> Option<bool>)
    requires forall i :: 0 <= i < |db.users| ==> db.users[i].email != unknown.email
    requires FindByEmail(db.users, wrong.email).Some?
    requires checkpw(wrong.password, FindByEmail(db.users, wrong.email).value.passwordHash) == Some(false)
    ensures Login(db, unknown, checkpw) == Login(db, wrong, checkpw) == Err(InvalidCredentials)
  {
  }

  /** The seeded administrator's placeholder hash is too short to hold a salt, so with a bcrypt
      that rejects such hashes every login as that administrator is a 500, whatever the
      password. */
  lemma {:induction false} SeededAdminLoginFails(adminId: int, req: LoginRequest,
                                                 checkpw: (string, string) -> Option<bool>)
    requires forall pw: string, h: string :: |h| < MinHashLength ==> checkpw(pw, h).None?
    requires req.email == AdminUser(adminId, ExampleHash).email
    ensures Login(SeedDefaults(Db([], [], [], []), adminId, false), req, checkpw) == Err(MalformedHash)
  {
    var db := SeedDefaults(Db([], [], [], []), adminId, false);
    assert db.users[0].email == req.email;
    assert FindByEmail(db.users, req.email) == Some(AdminUser(adminId, ExampleHash));
    assert |ExampleHash| < MinHashLength;
  }

  /** `login` of fastapi_server.py: the same decision, inside an acquired connection that the
      `finally` gives back whether the handler returns or raises. */
  function FastapiLogin(p: Pool, db: Db, req: LoginRequest, checkpw: (string, string) -> Option<bool>)
    : (r: (Reply<UserResponse>, Pool))
    ensures r.0 == Login(db, req, checkpw)
    ensures r.1.inUse == p.inUse && r.1.acquisitions == p.acquisitions + 1
  {
    var held := Acquire(p);
    (Login(db, req, checkpw), Release(held))
  }

  /** The checks signup makes on the request alone, in source order: passwords first, then terms. */
  function ValidateSignup(req: SignupRequest): (r: Option<HttpError>)
    ensures r.None? <==> req.password == req.confirmPassword && req.agreeToTerms
    ensures req.password != req.confirmPassword ==> r == Some(PasswordMismatch)
    ensures req.password == req.confirmPassword && !req.agreeToTerms ==> r == Some(TermsNotAccepted)
  {
    if req.password != req.confirmPassword then Some(PasswordMismatch)
    else if !req.agreeToTerms then Some(TermsNotAccepted)
    else None
  }

  /** `email.split('@')[0]`: the part of the e-mail before its first `@`. */
  function UsernameOf(email: string): (r: string)
    ensures StartsWith(email, r)
    ensures '@' !in r
    ensures |r| < |email| ==> email[|r|] == '@'
    ensures '@' !in email ==> r == email
  {
    var r := SplitHead(email, "@");
    ContainsChar(r, '@');
    ContainsChar(email, '@');
    r
  }

  /** The part after the checks: a 409 for a known e-mail, otherwise a new row whose username is
      derived from the e-mail. `hashpw` is bcrypt; `newId` is the id the database assigns. */
  function CreateUser(db: Db, req: SignupRequest, hashpw: string -> string, newId: int): (r: (Reply<UserResponse>, Db))
    ensures FindByEmail(db.users, req.email).Some? ==> r == (Err(EmailTaken), db)
    ensures FindByEmail(db.users, req.email).None? ==>
              var u := User(newId, req.email, UsernameOf(req.email), req.firstName, req.lastName,
                            hashpw(req.password));
              && r.1 == db.(users := db.users + [u])
              && r.0 == Ok(ToResponse(u))
  {
    if FindByEmail(db.users, req.email).Some? then (Err(EmailTaken), db)
    else
      var u := User(newId, req.email, UsernameOf(req.email), req.firstName, req.lastName,
                    hashpw(req.password));
      (Ok(ToResponse(u)), db.(users := db.users + [u]))
  }

  /** `signup` of routes.py: the request checks run before the session issues any statement,
      so a rejected request leaves the tables untouched. */
  function Signup(db: Db, req: SignupRequest, hashpw: string -> string, newId: int): (r: (Reply<UserResponse>, Db))
    ensures ValidateSignup(req).Some? ==> r == (Err(ValidateSignup(req).value), db)
    ensures ValidateSignup(req).None? ==> r == CreateUser(db, req, hashpw, newId)
    ensures r.0.Ok? ==> r.0.value.username == UsernameOf(req.email) && r.0.value.email == req.email
  {
    match ValidateSignup(req)
    case Some(e) => (Err(e), db)
    case None => CreateUser(db, req, hashpw, newId)
  }

  /** `signup` of fastapi_server.py: a rejected request is answered before any connection is
      acquired (the pool is not even created); an accepted one holds a connection that the
      `finally` releases, on the 409 path too. */
  function FastapiSignup(p: Pool, db: Db, req: SignupRequest, hashpw: string -> string, newId: int)
    : (r: (Reply<UserResponse>, Db, Pool))
    ensures (r.0, r.1) == Signup(db, req, hashpw, newId)
    ensures ValidateSignup(req).Some? ==> r.2 == p
    ensures ValidateSignup(req).None? ==> r.2.inUse == p.inUse && r.2.acquisitions == p.acquisitions + 1
  {
    match ValidateSignup(req)
    case Some(e) => (Err(e), db, p)
    case None =>
      var held := Acquire(p);
      var (reply, db') := CreateUser(db, req, hashpw, newId);
      (reply, db', Release(held))
  }

  ghost predicate UniqueEmails(users: seq<User>) {
    forall i, j :: 0 <= i < j < |users| ==> users[i].email != users[j].email
  }

  /** Signup never registers an e-mail twice: distinct e-mails stay distinct. */
  lemma {:induction false} SignupKeepsEmailsUnique(db: Db, req: SignupRequest, hashpw: string -> string, newId: int)
    requires UniqueEmails(db.users)
    ensures UniqueEmails(Signup(db, req, hashpw, newId).1.users)
  {
    var users' := Signup(db, req, hashpw, newId).1.users;
    if users' != db.users {
      assert FindByEmail(db.users, req.email).None?;
      assert users'[|db.users|].email == req.email;
      assert users'[..|db.users|] == db.users;
    }
  }
}

=== FILE: database_url.dfy ===
/** Rewriting of the `DATABASE_URL` setting before it reaches the database drivers
    (server/database.py and the copy at the top of server/fastapi_server.py). */
module DatabaseUrl {
  import opened Wrappers
  import opened Strings

  const Postgres: string := "postgresql://"
  const AsyncPostgres: string := "postgresql+asyncpg://"
  const SslModeMarker: string := "?sslmode="

  /** The value used when `DATABASE_URL` is not set. */
  const DefaultUrl: string := "postgresql://localhost/socialsync"

  /** Step 1: a `postgresql://` URL is given the async driver's scheme; anything else is kept. */
  function ToAsyncScheme(url: string): (r: string)
    ensures StartsWith(url, Postgres) ==> r == AsyncPostgres + url[|Postgres|..]
    ensures !StartsWith(url, Postgres) ==> r == url
  {
    if StartsWith(url, Postgres) then ReplaceFirst(url, Postgres, AsyncPostgres) else url
  }

  /** Step 2: the URL is cut just before the first `?sslmode=`, which the async driver rejects. */
  function StripSslMode(url: string): (r: string)
    ensures !Contains(r, SslModeMarker)
    ensures Contains(url, SslModeMarker) ==>
      && StartsWith(url, r)
      && OccursAt(url, SslModeMarker, |r|)
      && forall j :: 0 <= j < |r| ==> !OccursAt(url, SslModeMarker, j)
    ensures !Contains(url, SslModeMarker) ==> r == url
  {
    if Contains(url, SslModeMarker) then SplitHead(url, SslModeMarker) else url
  }

  /** The URL handed to SQLAlchemy's async engine: both steps, in order. The result never
      carries `?sslmode=`; a `postgresql://` setting comes out with the async scheme, and any
      other setting is only cut at its first `?sslmode=`. */
  function Normalize(url: string): (r: string)
    ensures !Contains(r, SslModeMarker)
    ensures StartsWith(url, Postgres) ==> StartsWith(r, AsyncPostgres)
    ensures !StartsWith(url, Postgres) ==> StartsWith(url, r)
    ensures !StartsWith(url, Postgres) ==> r == StripSslMode(url)
  {
    if StartsWith(url, Postgres) then
      StripAfterScheme(AsyncPostgres, url[|Postgres|..]);
      StripSslMode(ToAsyncScheme(url))
    else
      StripSslMode(ToAsyncScheme(url))
  }

  /** The URL handed to asyncpg in fastapi_server.py: the normalised URL with every
      `postgresql+asyncpg://` turned back into `postgresql://`. The rewrite only shortens the
      URL, leaves a URL without the async scheme as it is, and gives a URL that starts with the
      async scheme the plain one. */
  function AsyncpgUrl(url: string): (r: string)
    ensures |r| <= |Normalize(url)|
    ensures !Contains(Normalize(url), AsyncPostgres) ==> r == Normalize(url)
    ensures StartsWith(Normalize(url), AsyncPostgres) ==> StartsWith(r, Postgres)
  {
    var n := Normalize(url);
    if !Contains(n, AsyncPostgres) then
      ReplaceAllAbsent(n, AsyncPostgres, Postgres);
      ReplaceAll(n, AsyncPostgres, Postgres)
    else
      ReplaceAll(n, AsyncPostgres, Postgres)
  }

  /** Neither scheme contains the first character of `?sslmode=`. */
  lemma {:induction false} SchemesHaveNoQuestionMark()
    ensures SslModeMarker != [] && SslModeMarker[0] == '?'
    ensures '?' !in Postgres && '?' !in AsyncPostgres
  {
  }

  /** Cutting at `?sslmode=` commutes with prepending either scheme. */
  lemma {:induction false} StripAfterScheme(p: string, t: string)
    requires p == Postgres || p == AsyncPostgres
    ensures StripSslMode(p + t) == p + StripSslMode(t)
  {
    SchemesHaveNoQuestionMark();
    IndexOfAfterPrefix(p, t, SslModeMarker);
    SplitHeadAfterPrefix(p, t, SslModeMarker);
  }

  /** Normalising a `postgresql://` setting swaps the scheme and cuts the rest. */
  lemma {:induction false} NormalizePostgres(url: string)
    requires StartsWith(url, Postgres)
    ensures Normalize(url) == AsyncPostgres + StripSslMode(url[|Postgres|..])
  {
    StripAfterScheme(AsyncPostgres, url[|Postgres|..]);
  }

  /** The two schemes part at their eleventh character, so a URL cannot start with both. */
  lemma {:induction false} AsyncIsNotPlainPostgres(v: string)
    requires StartsWith(v, AsyncPostgres)
    ensures !StartsWith(v, Postgres)
  {
    assert v[10] == v[..|AsyncPostgres|][10] == '+';
    assert |Postgres| <= |v| ==> v[..|Postgres|][10] == v[10];
    assert Postgres[10] == ':';
  }

  /** A prefix of a URL that does not start with `postgresql://` does not either. */
  lemma {:induction false} PrefixIsNotPlainPostgres(url: string, v: string)
    requires StartsWith(url, v) && !StartsWith(url, Postgres)
    ensures !StartsWith(v, Postgres)
  {
    if |Postgres| <= |v| {
      assert url[..|Postgres|] == v[..|Postgres|];
    }
  }

  /** A normalised URL no longer starts with `postgresql://`. */
  lemma {:induction false} NormalizedIsNotPlainPostgres(url: string)
    ensures !StartsWith(Normalize(url), Postgres)
  {
    var v := Normalize(url);
    if StartsWith(url, Postgres) {
      AsyncIsNotPlainPostgres(v);
    } else {
      PrefixIsNotPlainPostgres(url, v);
    }
  }

  /** A URL with neither a `postgresql://` scheme nor `?sslmode=` is left alone. */
  lemma {:induction false} NormalizeFixesNormalized(v: string)
    requires !StartsWith(v, Postgres) && !Contains(v, SslModeMarker)
    ensures Normalize(v) == v
  {
    assert ToAsyncScheme(v) == v;
    assert StripSslMode(v) == v;
  }

  /** A normalised URL never contains `?sslmode=`, and normalising it again changes nothing. */
  lemma {:induction false} NormalizeIdempotent(url: string)
    ensures !Contains(Normalize(url), SslModeMarker)
    ensures Normalize(Normalize(url)) == Normalize(url)
  {
    NormalizedIsNotPlainPostgres(url);
    NormalizeFixesNormalized(Normalize(url));
  }

  /** For a `postgresql://` setting that never mentions the async scheme, the asyncpg URL is
      the setting itself cut at its first `?sslmode=`: the two scheme rewrites cancel. */
  lemma {:induction false} AsyncpgUrlIsStrippedSetting(url: string)
    requires StartsWith(url, Postgres)
    requires !Contains(url, AsyncPostgres)
    ensures AsyncpgUrl(url) == StripSslMode(url)
  {
    var t := url[|Postgres|..];
    assert url == Postgres + t;
    NormalizePostgres(url);
    StripAfterScheme(Postgres, t);
    var c := StripSslMode(t);
    var n := AsyncPostgres + c;
    assert n[..|AsyncPostgres|] == AsyncPostgres && n[|AsyncPostgres|..] == c;
    assert ReplaceAll(n, AsyncPostgres, Postgres) == Postgres + ReplaceAll(c, AsyncPostgres, Postgres);
    OccursInSuffix(url, AsyncPostgres, |Postgres|);
    assert c == t[..|c|];
    PrefixOfAbsent(t, AsyncPostgres, |c|);
    ReplaceAllAbsent(c, AsyncPostgres, Postgres);
  }

  /** A setting already written with the async scheme (and no second one after it) keeps it
      through normalisation, and the asyncpg URL turns it back into `postgresql://` followed
      by the remainder cut at its first `?sslmode=`. */
  lemma {:induction false} AsyncpgUrlOfAsyncSetting(url: string)
    requires StartsWith(url, AsyncPostgres)
    requires !Contains(url[|AsyncPostgres|..], AsyncPostgres)
    ensures AsyncpgUrl(url) == Postgres + StripSslMode(url[|AsyncPostgres|..])
  {
    var t := url[|AsyncPostgres|..];
    assert url == AsyncPostgres + t;
    AsyncIsNotPlainPostgres(url);
    StripAfterScheme(AsyncPostgres, t);
    var c := StripSslMode(t);
    var n := AsyncPostgres + c;
    assert Normalize(url) == n;
    assert n[..|AsyncPostgres|] == AsyncPostgres && n[|AsyncPostgres|..] == c;
    assert ReplaceAll(n, AsyncPostgres, Postgres) == Postgres + ReplaceAll(c, AsyncPostgres, Postgres);
    assert c == t[..|c|];
    PrefixOfAbsent(t, AsyncPostgres, |c|);
    ReplaceAllAbsent(c, AsyncPostgres, Postgres);
  }

  /** With `DATABASE_URL` unset, the engine gets the default with the asyncpg scheme and
      asyncpg gets the default back unchanged. */
  lemma {:induction false} DefaultUrlRoundTrip()
    ensures Normalize(DefaultUrl) == AsyncPostgres + DefaultUrl[|Postgres|..]
    ensures AsyncpgUrl(DefaultUrl) == DefaultUrl
  {
    DefaultUrlShape();
    NormalizePostgres(DefaultUrl);
    AsyncpgUrlIsStrippedSetting(DefaultUrl);
  }

  /** The default has the plain scheme and no `?sslmode=`. */
  lemma {:induction false} DefaultUrlShape()
    ensures StartsWith(DefaultUrl, Postgres)
    ensures !Contains(DefaultUrl, SslModeMarker) && !Contains(DefaultUrl[|Postgres|..], SslModeMarker)
    ensures !Contains(DefaultUrl, AsyncPostgres)
  {
    assert DefaultUrl[..|Postgres|] == Postgres;
    SchemesHaveNoQuestionMark();
    assert '?' !in DefaultUrl;
    MissingCharAbsent(DefaultUrl, SslModeMarker, 0);
    MissingCharAbsent(DefaultUrl[|Postgres|..], SslModeMarker, 0);
    DefaultUrlHasNoAsyncScheme();
  }

  /** The default never mentions the async scheme: it has no `+`. */
  lemma {:induction false} DefaultUrlHasNoAsyncScheme()
    ensures !Contains(DefaultUrl, AsyncPostgres)
  {
    var k := 10;
    assert AsyncPostgres[k] == '+';
    assert forall i :: 0 <= i < |DefaultUrl| ==> DefaultUrl[i] != '+';
    MissingCharAbsent(DefaultUrl, AsyncPostgres, k);
  }
}

=== FILE: json.dfy ===
/** Already-parsed JSON values and the Python operators the handlers apply to them
    (`key in value`, `value[key]`, `for item in value`). */
module Json {
  import opened Wrappers
  import Strings

  /** A value produced by `json.loads`. Numbers are kept as integers: no handler inspects them. */
  datatype Json =
    | JNull
    | JBool(b: bool)
    | JNum(n: int)
    | JStr(s: string)
    | JArr(items: seq<Json>)
    | JObj(fields: seq<(string, Json)>)

  /** The Python exceptions those operators raise on values of the wrong shape. */
  datatype PyError = TypeError | KeyError

  /** Python's `{}`. */
  const EmptyObject: Json := JObj([])

  /** The value stored under `key`; the first field wins (a parsed object has distinct keys). */
  function Get(fields: seq<(string, Json)>, key: string): (r: Option<Json>)
    ensures r.Some? ==> (key, r.value) in fields
    ensures r.None? ==> forall i :: 0 <= i < |fields| ==> fields[i].0 != key
  {
    if fields == [] then None
    else if fields[0].0 == key then Some(fields[0].1)
    else Get(fields[1..], key)
  }

  /** Python's `key in value` for a string key. */
  function PyContains(value: Json, key: string): (r: Result<bool, PyError>)
    ensures value.JObj? ==> r == Ok(Get(value.fields, key).Some?)
    ensures value.JArr? ==> r == Ok(JStr(key) in value.items)
    ensures value.JStr? ==> r == Ok(Strings.Contains(value.s, key))
    ensures r.Err? <==> value.JNull? || value.JBool? || value.JNum?
    ensures r.Err? ==> r.error == TypeError
  {
    match value
    case JObj(fields) => Ok(Get(fields, key).Some?)
    case JArr(items) => Ok(JStr(key) in items)
    case JStr(s) => Ok(Strings.Contains(s, key))
    case _ => Err(TypeError)
  }

  /** Python's `value[key]` for a string key: only an object with that key answers. */
  function PyIndex(value: Json, key: string): (r: Result<Json, PyError>)
    ensures r.Ok? <==> value.JObj? && Get(value.fields, key).Some?
    ensures r.Ok? ==> r.value == Get(value.fields, key).value
    ensures value.JObj? && Get(value.fields, key).None? ==> r == Err(KeyError)
    ensures !value.JObj? ==> r == Err(TypeError)
  {
    match value
    case JObj(fields) =>
      (match Get(fields, key)
       case Some(v) => Ok(v)
       case None => Err(KeyError))
    case _ => Err(TypeError)
  }

  /** Python's `for item in value`: list items, object keys, or one-character strings. */
  function PyIter(value: Json): (r: Result<seq<Json>, PyError>)
    ensures value.JArr? ==> r == Ok(value.items)
    ensures value.JObj? ==>
              && r.Ok? && |r.value| == |value.fields|
              && forall i :: 0 <= i < |r.value| ==> r.value[i] == JStr(value.fields[i].0)
    ensures value.JStr? ==>
              && r.Ok? && |r.value| == |value.s|
              && forall i :: 0 <= i < |r.value| ==> r.value[i] == JStr([value.s[i]])
    ensures r.Err? <==> value.JNull? || value.JBool? || value.JNum?
    ensures r.Err? ==> r.error == TypeError
  {
    match value
    case JArr(items) => Ok(items)
    case JObj(fields) => Ok(seq(|fields|, i requires 0 <= i < |fields| => JStr(fields[i].0)))
    case JStr(s) => Ok(seq(|s|, i requires 0 <= i < |s| => JStr([s[i]])))
    case _ => Err(TypeError)
  }
}

=== FILE: middleware.dfy ===
/** The HTTP middleware and the global exception handler of main.py and fastapi_server.py. The
    clock is left out: the elapsed milliseconds arrive as a parameter. */
module Middleware {
  import opened Wrappers
  import opened Strings

  const ApiPrefix: string := "/api"
  const LogPrefix: string := "[express] "
  const BodyLimit: nat := 80
  const Ellipsis: char := '…'

  /** Only requests under `/api` are logged. */
  predicate ShouldLog(path: string) {
    StartsWith(path, ApiPrefix)
  }

  /** The filter is a plain prefix test, not a path-segment test: whatever follows `/api` is
      logged (`/api`, `/api/auth/login`, but also `/apiary`), and no path shorter than the
      prefix is. */
  lemma ShouldLogPrefix(rest: string, path: string)
    ensures ShouldLog(ApiPrefix + rest)
    ensures |path| < |ApiPrefix| ==> !ShouldLog(path)
    ensures !ShouldLog("/") && !ShouldLog("/ws") && ShouldLog("/apiary")
  {
    assert (ApiPrefix + rest)[..|ApiPrefix|] == ApiPrefix;
    assert "/apiary"[..4] == ApiPrefix;
  }

  /** A body longer than 80 characters keeps its first 79 and gains an ellipsis. */
  function TruncateBody(body: string): (r: string)
    ensures |r| <= BodyLimit
    ensures |body| <= BodyLimit ==> r == body
    ensures |body| > BodyLimit ==> |r| == BodyLimit && r[..BodyLimit - 1] == body[..BodyLimit - 1] && r[BodyLimit - 1] == Ellipsis
  {
    if |body| > BodyLimit then body[..BodyLimit - 1] + [Ellipsis] else body
  }

  /** Truncating twice is truncating once. */
  lemma TruncateBodyIdempotent(body: string)
    ensures TruncateBody(TruncateBody(body)) == TruncateBody(body)
  {
  }

  /** What the middleware finds on the response: no `body` attribute, a body whose `decode()`
      raises, or the decoded text (an empty body decodes to `""`). */
  datatype ResponseBody = NoBody | Undecodable | Decoded(text: string)

  /** `"{method} {path} {status} in {ms}ms"`. */
  function RequestSummary(verb: string, path: string, status: nat, elapsedMs: nat): string {
    verb + " " + path + " " + NatToString(status) + " in " + NatToString(elapsedMs) + "ms"
  }

  /** The line main.py prints for a request, if any: nothing outside `/api`; the summary, followed
      by `" :: "` and the truncated body when there is a non-empty decodable body. */
  function LogLine(verb: string, path: string, status: nat, elapsedMs: nat, body: ResponseBody): (r: Option<string>)
    ensures r.Some? <==> ShouldLog(path)
    ensures r.Some? ==> StartsWith(r.value, LogPrefix + RequestSummary(verb, path, status, elapsedMs))
    ensures r.Some? && body.Decoded? && body.text != "" ==>
              r.value == LogPrefix + RequestSummary(verb, path, status, elapsedMs) + " :: " + TruncateBody(body.text)
    ensures r.Some? && !(body.Decoded? && body.text != "") ==>
              r.value == LogPrefix + RequestSummary(verb, path, status, elapsedMs)
  {
    if !ShouldLog(path) then None
    else
      var summary := RequestSummary(verb, path, status, elapsedMs);
      match body
      case Decoded(text) =>
        if text != "" then
          var line := LogPrefix + summary + " :: " + TruncateBody(text);
          assert line[..|LogPrefix + summary|] == LogPrefix + summary;
          Some(line)
        else Some(LogPrefix + summary)
      case _ => Some(LogPrefix + summary)
  }

  /** fastapi_server.py logs the summary only: the line main.py prints for a response without a
      body, and a different line from main.py's whenever there is body text to append. */
  function FastapiLogLine(verb: string, path: string, status: nat, elapsedMs: nat): (r: Option<string>)
    ensures r == LogLine(verb, path, status, elapsedMs, NoBody)
    ensures forall body: ResponseBody :: ShouldLog(path) && body.Decoded? && body.text != "" ==>
              r != LogLine(verb, path, status, elapsedMs, body)
  {
    var r := if ShouldLog(path) then Some(LogPrefix + RequestSummary(verb, path, status, elapsedMs)) else None;
    assert forall body: ResponseBody :: body.Decoded? && body.text != "" && ShouldLog(path) ==>
             |LogLine(verb, path, status, elapsedMs, body).value| > |r.value|;
    r
  }

  /** An exception reaching the handler: its `status_code` attribute, if any, and `str(exc)`. */
  datatype Raised = Raised(statusCode: Option<int>, text: string)

  datatype ErrorResponse = ErrorResponse(status: int, message: string)

  const DefaultMessage: string := "Internal Server Error"

  /** `global_exception_handler`: the exception's own status or 500, and its text or a default,
      so the message is never empty. */
  function GlobalExceptionHandler(e: Raised): (r: ErrorResponse)
    ensures e.statusCode.Some? ==> r.status == e.statusCode.value
    ensures e.statusCode.None? ==> r.status == 500
    ensures r.message != ""
    ensures e.text != "" ==> r.message == e.text
    ensures e.text == "" ==> r.message == DefaultMessage
  {
    ErrorResponse(e.statusCode.GetOr(500), if e.text != "" then e.text else DefaultMessage)
  }
}

=== FILE: strings.dfy ===
/** The few `str` operations the server applies to URLs, emails and log lines. */
module Strings {
  import opened Wrappers

  predicate StartsWith(s: string, prefix: string) {
    |prefix| <= |s| && s[..|prefix|] == prefix
  }

  /** `pat` occurs in `s` starting at position `i`. */
  predicate OccursAt(s: string, pat: string, i: int) {
    0 <= i && i + |pat| <= |s| && s[i..i + |pat|] == pat
  }

  /** Python's `s.find(pat)`: the first position at which `pat` occurs, if any. */
  function IndexOf(s: string, pat: string): (r: Option<nat>)
    ensures r.Some? ==> OccursAt(s, pat, r.value)
    ensures r.Some? ==> forall j :: 0 <= j < r.value ==> !OccursAt(s, pat, j)
    ensures r.None? ==> forall j :: !OccursAt(s, pat, j)
    decreases |s|
  {
    if StartsWith(s, pat) then Some(0)
    else if |s| == 0 then None
    else
      var rest := IndexOf(s[1..], pat);
      ShiftOccurrence(s, pat);
      assert !OccursAt(s, pat, 0);
      match rest
      case Some(i) => Some(i + 1)
      case None => None
  }

  /** Python's `pat in s`. */
  predicate Contains(s: string, pat: string) {
    IndexOf(s, pat).Some?
  }

  /** A pattern cannot occur in a text that lacks one of its characters. */
  lemma {:induction false} MissingCharAbsent(s: string, pat: string, k: nat)
    requires k < |pat| && pat[k] !in s
    ensures !Contains(s, pat)
  {
  }

  /** A one-character pattern occurs exactly when the character does. */
  lemma {:induction false} ContainsChar(s: string, c: char)
    ensures Contains(s, [c]) <==> c in s
  {
    if c in s {
      var i :| 0 <= i < |s| && s[i] == c;
      assert s[i..i + 1] == [c];
      assert OccursAt(s, [c], i);
    }
    if Contains(s, [c]) {
      var i := IndexOf(s, [c]).value;
      assert s[i..i + 1] == [c];
      assert s[i] == c;
    }
  }

  /** Python's `s.replace(pat, rep, 1)`: the first occurrence, if any, is swapped for `rep` and
      the text around it is kept. */
  function ReplaceFirst(s: string, pat: string, rep: string): (r: string)
    ensures IndexOf(s, pat).None? ==> r == s
    ensures IndexOf(s, pat).Some? ==> |r| + |pat| == |s| + |rep|
    ensures IndexOf(s, pat).Some? ==> StartsWith(r, s[..IndexOf(s, pat).value] + rep)
    ensures StartsWith(s, pat) ==> r == rep + s[|pat|..]
  {
    match IndexOf(s, pat)
    case Some(i) => s[..i] + rep + s[i + |pat|..]
    case None => s
  }

  /** Python's `s.replace(pat, rep)`: every non-overlapping occurrence, scanning left to right. */
  function ReplaceAll(s: string, pat: string, rep: string): (r: string)
    requires pat != []
    ensures |rep| <= |pat| ==> |r| <= |s|
    ensures |s| < |pat| ==> r == s
    ensures StartsWith(s, pat) ==> StartsWith(r, rep)
    decreases |s|
  {
    if |s| < |pat| then s
    else if s[..|pat|] == pat then rep + ReplaceAll(s[|pat|..], pat, rep)
    else [s[0]] + ReplaceAll(s[1..], pat, rep)
  }

  /** Python's `s.split(sep)[0]` (an empty separator raises in Python). */
  function SplitHead(s: string, sep: string): (r: string)
    requires sep != []
    ensures StartsWith(s, r)
    ensures !Contains(r, sep)
    ensures Contains(s, sep) ==> OccursAt(s, sep, |r|)
    ensures !Contains(s, sep) ==> r == s
  {
    match IndexOf(s, sep)
    case Some(i) =>
      PrefixKeepsAbsence(s, sep, i);
      s[..i]
    case None => s
  }

  /** Occurrences in `s[1..]` are the occurrences in `s` after position 0, shifted by one. */
  lemma {:induction false} ShiftOccurrence(s: string, pat: string)
    requires s != []
    ensures forall k :: 1 <= k ==> (OccursAt(s, pat, k) <==> OccursAt(s[1..], pat, k - 1))
  {
    forall k | 1 <= k
      ensures OccursAt(s, pat, k) <==> OccursAt(s[1..], pat, k - 1)
    {
      if k + |pat| <= |s| {
        assert s[1..][k - 1..k - 1 + |pat|] == s[k..k + |pat|];
      }
    }
  }

  /** An occurrence inside a prefix is an occurrence in the whole string. */
  lemma {:induction false} OccursInPrefix(s: string, pat: string, k: nat)
    requires k <= |s|
    ensures forall j :: OccursAt(s[..k], pat, j) ==> OccursAt(s, pat, j) && j + |pat| <= k
  {
    forall j | OccursAt(s[..k], pat, j)
      ensures OccursAt(s, pat, j) && j + |pat| <= k
    {
      assert s[..k][j..j + |pat|] == s[j..j + |pat|];
    }
  }

  /** An occurrence inside a suffix is an occurrence in the whole string. */
  lemma {:induction false} OccursInSuffix(s: string, pat: string, k: nat)
    requires k <= |s|
    ensures forall j :: OccursAt(s[k..], pat, j) ==> OccursAt(s, pat, j + k)
  {
    forall j | OccursAt(s[k..], pat, j)
      ensures OccursAt(s, pat, j + k)
    {
      assert s[k..][j..j + |pat|] == s[j + k..j + k + |pat|];
    }
  }

  /** Cutting `s` before the first occurrence of a non-empty `pat` leaves no occurrence of `pat`. */
  lemma {:induction false} PrefixKeepsAbsence(s: string, pat: string, i: nat)
    requires pat != [] && i <= |s|
    requires forall j :: 0 <= j < i ==> !OccursAt(s, pat, j)
    ensures !Contains(s[..i], pat)
  {
    OccursInPrefix(s, pat, i);
  }

  /** No prefix of a string free of `pat` contains `pat`. */
  lemma {:induction false} PrefixOfAbsent(s: string, pat: string, k: nat)
    requires k <= |s|
    requires !Contains(s, pat)
    ensures !Contains(s[..k], pat)
  {
    OccursInPrefix(s, pat, k);
  }

  /** When the first character of `pat` never appears in `p`, the first occurrence of `pat`
      in `p + t` is the first occurrence in `t`, shifted by `|p|`. */
  lemma {:induction false} IndexOfAfterPrefix(p: string, t: string, pat: string)
    requires pat != [] && pat[0] !in p
    ensures IndexOf(t, pat).Some? ==> IndexOf(p + t, pat) == Some(|p| + IndexOf(t, pat).value)
    ensures IndexOf(t, pat).None? ==> IndexOf(p + t, pat).None?
  {
    match IndexOf(t, pat)
    case Some(i) => IndexOfShifted(p, t, pat, i);
    case None =>
      NoOccurrenceBeforeSuffix(p, t, pat);
      OccurrenceInSuffix(p, t, pat);
      IndexOfAbsent(p + t, pat);
  }

  /** The first occurrence in `t` is the first in `p + t`, moved along by `|p|`. */
  lemma {:induction false} IndexOfShifted(p: string, t: string, pat: string, i: nat)
    requires pat != [] && pat[0] !in p
    requires IndexOf(t, pat) == Some(i)
    ensures IndexOf(p + t, pat) == Some(|p| + i)
  {
    NoOccurrenceBeforeSuffix(p, t, pat);
    OccurrenceInSuffix(p, t, pat);
    IndexOfIsFirst(p + t, pat, |p| + i);
  }

  /** No occurrence of `pat` can start inside a prefix that lacks its first character. */
  lemma {:induction false} NoOccurrenceBeforeSuffix(p: string, t: string, pat: string)
    requires pat != [] && pat[0] !in p
    ensures forall j :: 0 <= j < |p| ==> !OccursAt(p + t, pat, j)
  {
    forall j | 0 <= j < |p|
      ensures !OccursAt(p + t, pat, j)
    {
      if j + |pat| <= |p + t| {
        assert (p + t)[j..j + |pat|][0] == p[j];
      }
    }
  }

  /** Occurrences after a prefix are the occurrences in the suffix, shifted. */
  lemma {:induction false} OccurrenceInSuffix(p: string, t: string, pat: string)
    ensures forall k :: |p| <= k ==> (OccursAt(p + t, pat, k) <==> OccursAt(t, pat, k - |p|))
  {
    forall k | |p| <= k
      ensures OccursAt(p + t, pat, k) <==> OccursAt(t, pat, k - |p|)
    {
      if k + |pat| <= |p + t| {
        assert (p + t)[k..k + |pat|] == t[k - |p|..k - |p| + |pat|];
      }
    }
  }

  /** The first occurrence is what `find` returns. */
  lemma {:induction false} IndexOfIsFirst(s: string, pat: string, k: nat)
    requires OccursAt(s, pat, k)
    requires forall j :: 0 <= j < k ==> !OccursAt(s, pat, j)
    ensures IndexOf(s, pat) == Some(k)
  {
  }

  /** Without an occurrence, `find` finds nothing. */
  lemma {:induction false} IndexOfAbsent(s: string, pat: string)
    requires forall j :: !OccursAt(s, pat, j)
    ensures IndexOf(s, pat) == None
  {
  }

  /** `split(sep)[0]` commutes with prepending text that cannot start a separator. */
  lemma {:induction false} SplitHeadAfterPrefix(p: string, t: string, sep: string)
    requires sep != [] && sep[0] !in p
    ensures SplitHead(p + t, sep) == p + SplitHead(t, sep)
  {
    IndexOfAfterPrefix(p, t, sep);
    match IndexOf(t, sep)
    case Some(i) =>
      assert (p + t)[..|p| + i] == p + t[..i];
    case None =>
  }

  /** `replace` leaves a string without occurrences unchanged. */
  lemma {:induction false} ReplaceAllAbsent(s: string, pat: string, rep: string)
    requires pat != []
    requires !Contains(s, pat)
    ensures ReplaceAll(s, pat, rep) == s
    decreases |s|
  {
    if |s| < |pat| {
    } else {
      assert !OccursAt(s, pat, 0);
      ShiftOccurrence(s, pat);
      ReplaceAllAbsent(s[1..], pat, rep);
      assert [s[0]] + s[1..] == s;
    }
  }

  /** A decimal digit. */
  function Digit(d: nat): (c: char)
    requires d < 10
  {
    (48 + d) as char
  }

  /** Python's `str(n)` for a non-negative integer. */
  function NatToString(n: nat): (r: string)
    ensures |r| >= 1
    ensures n >= 10 ==> |r| >= 2
  {
    if n < 10 then [Digit(n)] else NatToString(n / 10) + [Digit(n % 10)]
  }

  /** The decimal text of `n` is "0" exactly when `n` is zero. */
  lemma {:induction false} NatToStringZero(n: nat)
    ensures NatToString(n) == "0" <==> n == 0
  {
    if n < 10 && n != 0 {
      assert NatToString(n)[0] == Digit(n) != '0';
    }
  }
}

=== FILE: tables.dfy ===
/** The relational store as abstract tables, the connection pool as a counter, and the startup
    seeding of server/database.py and server/fastapi_server.py. SQL text is not modelled: each
    statement is the table update it performs. */
module Tables {
  import opened Wrappers
  import opened Json

  datatype User = User(id: int, email: string, username: string, firstName: string,
                       lastName: string, passwordHash: string)

  datatype Platform = Platform(name: string, displayName: string, isActive: bool)

  /** The `workflow_json` column of a workflow row: SQL NULL or text. */
  datatype Column = Null | Text(text: string)

  datatype Workflow = Workflow(id: int, workflowJson: Column)

  /** A row of `comfy_models`; `kind` is the `type` column. */
  datatype ModelRow = ModelRow(workflowId: int, name: Json, kind: string, required: bool)

  datatype Db = Db(users: seq<User>, platforms: seq<Platform>, workflows: seq<Workflow>,
                   models: seq<ModelRow>)

  /** An `HTTPException` raised by a handler. */
  datatype HttpError = HttpError(status: int, detail: string)

  /** A handler's outcome: a response body or the `HTTPException` it raised. */
  type Reply<T> = Result<T, HttpError>

  /** The index of the first row that matches, or the length when none does. */
  function FirstMatch<T>(rows: seq<T>, matches: T -> bool): (i: nat)
    ensures i <= |rows|
    ensures forall j :: 0 <= j < i ==> !matches(rows[j])
    ensures i < |rows| ==> matches(rows[i])
  {
    if rows == [] then 0
    else if matches(rows[0]) then 0
    else
      var k := FirstMatch(rows[1..], matches);
      assert forall j :: 1 <= j < k + 1 ==> rows[j] == rows[1..][j - 1];
      k + 1
  }

  /** A `SELECT ... WHERE` read with `fetchone` / `fetchrow`: the first row that matches, if
      any. */
  function FindFirst<T>(rows: seq<T>, matches: T -> bool): (r: Option<T>)
    ensures r.Some? ==> r.value in rows && matches(r.value)
    ensures r.None? <==> forall i :: 0 <= i < |rows| ==> !matches(rows[i])
    ensures r.Some? ==>
              exists i :: 0 <= i < |rows| && rows[i] == r.value && forall j :: 0 <= j < i ==> !matches(rows[j])
  {
    var i := FirstMatch(rows, matches);
    if i < |rows| then Some(rows[i]) else None
  }

  /** The asyncpg pool of fastapi_server.py, seen only through the handlers' use of it:
      whether it has been created, how many connections are checked out, and how many
      acquisitions have ever been made. Waiting on an exhausted pool is not modelled. */
  datatype Pool = Pool(created: bool, inUse: nat, acquisitions: nat)

  /** No pool exists before the first request. */
  const NoPool: Pool := Pool(false, 0, 0)

  /** `get_db_connection`: creates the pool on first use, then checks a connection out. */
  function Acquire(p: Pool): (r: Pool)
    ensures r.created
    ensures r.inUse == p.inUse + 1 && r.acquisitions == p.acquisitions + 1
  {
    Pool(true, p.inUse + 1, p.acquisitions + 1)
  }

  /** `release_db_connection`: gives a checked-out connection back. */
  function Release(p: Pool): (r: Pool)
    requires p.inUse > 0
    ensures r.inUse == p.inUse - 1
    ensures r.created == p.created && r.acquisitions == p.acquisitions
  {
    p.(inUse := p.inUse - 1)
  }

  /** A release right after an acquisition leaves the in-use count where it was. */
  lemma ReleaseAfterAcquire(p: Pool)
    ensures Release(Acquire(p)) == Pool(true, p.inUse, p.acquisitions + 1)
  {
  }

  /** The first request creates the pool and checks out its first connection; giving it back
      leaves a created pool with nothing in use. */
  lemma FirstRequestCreatesPool()
    ensures !NoPool.created && NoPool.inUse == 0
    ensures Acquire(NoPool) == Pool(true, 1, 1)
    ensures Release(Acquire(NoPool)) == Pool(true, 0, 1)
  {
  }

  const AdminEmail: string := "admin@example.com"
  const Youtube: Platform := Platform("youtube", "YouTube", true)

  /** The default administrator inserted into an empty user table. */
  function AdminUser(id: int, passwordHash: string): User {
    User(id, AdminEmail, "admin", "Admin", "User", passwordHash)
  }

  /** The password hash database.py stores for the administrator. */
  const ExampleHash: string := "$2b$10$example_hash"

  /** `init_default_data` (database.py): when the user table is empty, one administrator and
      the youtube platform are inserted and committed together; if any statement raises the
      session is rolled back. `adminId` is the id the database assigns. */
  function SeedDefaults(db: Db, adminId: int, fails: bool): (r: Db)
    ensures |db.users| == 0 && !fails ==>
              && r.users == [AdminUser(adminId, ExampleHash)]
              && |r.platforms| == |db.platforms| + 1
              && r.platforms[..|db.platforms|] == db.platforms
              && r.platforms[|db.platforms|] == Youtube
    ensures |db.users| != 0 || fails ==> r == db
    ensures r.workflows == db.workflows && r.models == db.models
  {
    if |db.users| == 0 && !fails then
      db.(users := db.users + [AdminUser(adminId, ExampleHash)], platforms := db.platforms + [Youtube])
    else db
  }

  /** Seeding twice inserts the defaults once: after a successful first run the user table is
      no longer empty. */
  lemma SeedDefaultsOnce(db: Db, id1: int, id2: int, fails: bool)
    ensures SeedDefaults(SeedDefaults(db, id1, false), id2, fails) == SeedDefaults(db, id1, false)
  {
  }

  /** Where `init_database` of fastapi_server.py can raise. */
  datatype InitFault = NoFault | AtAcquire | AtPing | AtCount | AtInsertUser | AtInsertPlatform

  /** `init_database` of fastapi_server.py AS WRITTEN: statements run in autocommit mode, and the
      connection is released only at the end of the successful path; any exception is printed
      and swallowed. `hash` is the bcrypt hash of "password123". */
  function InitDatabaseAsWritten(p: Pool, db: Db, hash: string, adminId: int, fault: InitFault): (r: (Pool, Db))
    ensures fault == AtAcquire ==> r == (p, db)
    ensures fault != AtAcquire ==> r.0.acquisitions == p.acquisitions + 1
    ensures fault == NoFault ==> r.0.inUse == p.inUse
    ensures fault == AtPing || fault == AtCount ==> r.1 == db && r.0.inUse == p.inUse + 1
    ensures (|db.users| != 0 && fault in {NoFault, AtInsertUser, AtInsertPlatform}) ==>
              r.1 == db && r.0.inUse == p.inUse
    ensures |db.users| == 0 && fault == AtInsertUser ==> r.1 == db && r.0.inUse == p.inUse + 1
    ensures (|db.users| == 0 && fault == AtInsertPlatform) ==>
              && r.1.users == [AdminUser(adminId, hash)]
              && r.1.platforms == db.platforms
              && r.0.inUse == p.inUse + 1
    ensures (|db.users| == 0 && fault == NoFault) ==>
              && r.1.users == [AdminUser(adminId, hash)]
              && r.1.platforms == db.platforms + [Youtube]
    ensures r.1.workflows == db.workflows && r.1.models == db.models
  {
    if fault == AtAcquire then (p, db)
    else
      var held := Acquire(p);
      if fault == AtPing || fault == AtCount then (held, db)
      else if |db.users| != 0 then (Release(held), db)
      else if fault == AtInsertUser then (held, db)
      else
        var withAdmin := db.(users := db.users + [AdminUser(adminId, hash)]);
        if fault == AtInsertPlatform then (held, withAdmin)
        else (Release(held), withAdmin.(platforms := db.platforms + [Youtube]))
  }

  /** The leak: once a connection is held, an exception keeps it checked out for good. */
  lemma {:induction false} InitDatabaseLeaks(p: Pool, db: Db, hash: string, adminId: int)
    ensures InitDatabaseAsWritten(p, db, hash, adminId, AtPing).0.inUse == p.inUse + 1
    ensures InitDatabaseAsWritten(p, db, hash, adminId, AtCount).0.inUse == p.inUse + 1
    ensures |db.users| == 0 ==>
              InitDatabaseAsWritten(p, db, hash, adminId, AtInsertUser).0.inUse == p.inUse + 1
  {
  }

  /** `init_database` with the release moved to a `finally`, as every request handler of the
      same file does it. The table effects are those of the code as written. */
  function InitDatabase(p: Pool, db: Db, hash: string, adminId: int, fault: InitFault): (r: (Pool, Db))
    ensures r.0.inUse == p.inUse
    ensures r.1 == InitDatabaseAsWritten(p, db, hash, adminId, fault).1
    ensures fault == NoFault && |db.users| == 0 ==>
              && r.1.users == [AdminUser(adminId, hash)]
              && r.1.platforms == db.platforms + [Youtube]
    ensures fault == NoFault && |db.users| != 0 ==> r.1 == db
  {
    var (q, d) := InitDatabaseAsWritten(p, db, hash, adminId, fault);
    if fault == AtAcquire then (q, d) else (Release(Acquire(p)), d)
  }
}

=== FILE: websocket_manager.dfy ===
/** The broadcast registry and progress side-store of server/websocket_manager.py
    (the class is repeated, without the progress store, at server/fastapi_server.py:36-60).
    Socket handles are opaque values of type `H`; compared with `==` as Python compares them.
    Every socket send is answered by an oracle: one boolean per attempt, `false` when
    `send_text` raised. */
module WebSocketManager {
  import opened Wrappers
  import opened Json

  /** The progress data of one generation: a JSON object (`Dict[str, Any]`). */
  type Payload = seq<(string, Json)>

  /** The registry: the ordered list of live sockets and the progress map. */
  datatype Manager<H> = Manager(connections: seq<H>, progress: map<int, Payload>)

  /** One attempt to send `text` to socket `to`; `ok` is false when the send raised. */
  datatype Send<H> = Send(to: H, text: string, ok: bool)

  /** What one `broadcast` or `send_personal_message` leaves behind: the new registry and the attempts, in the order made. */
  datatype BroadcastResult<H> = BroadcastResult(manager: Manager<H>, sends: seq<Send<H>>)

  /** The state of the first loop of `broadcast`: attempts made and the `disconnected` list. */
  datatype Round<H> = Round(sends: seq<Send<H>>, failed: seq<H>)

  /** A freshly constructed manager. */
  function NewManager<H>(): (r: Manager<H>)
    ensures r.connections == []
    ensures forall generationId :: GetProgress(r, generationId) == []
  {
    Manager([], map[])
  }

  ghost predicate Distinct<H>(s: seq<H>) {
    forall i, j :: 0 <= i < j < |s| ==> s[i] != s[j]
  }

  /** The position of the first occurrence of `x`. */
  function FirstIndex<H(==)>(s: seq<H>, x: H): (i: nat)
    requires x in s
    ensures i < |s| && s[i] == x && x !in s[..i]
  {
    if s[0] == x then 0 else 1 + FirstIndex(s[1..], x)
  }

  /** `if x in s: s.remove(x)`: drops the first occurrence of `x`, if there is one. */
  function RemoveFirst<H(==)>(s: seq<H>, x: H): (r: seq<H>)
    ensures x !in s ==> r == s
    ensures x in s ==> |r| == |s| - 1
  {
    if s == [] then []
    else if s[0] == x then s[1..] else [s[0]] + RemoveFirst(s[1..], x)
  }

  /** Removing the first occurrence cuts out the entry at any index that holds `x` with no
      earlier `x`. */
  lemma {:induction false} RemoveFirstAt<H>(s: seq<H>, x: H, k: nat)
    requires k < |s| && s[k] == x && x !in s[..k]
    ensures RemoveFirst(s, x) == s[..k] + s[k + 1..]
  {
    if k == 0 {
      assert s[..0] + s[1..] == s[1..];
    } else {
      assert s[..k][0] == s[0];
      var t := s[1..];
      assert t[..k - 1] == s[1..k];
      assert s[..k] == [s[0]] + t[..k - 1];
      assert RemoveFirst(s, x) == [s[0]] + RemoveFirst(t, x);
      RemoveFirstAt(t, x, k - 1);
      assert s[k + 1..] == t[k..];
    }
  }

  /** What `list.remove` drops is the entry at the first index holding `x`. */
  lemma {:induction false} RemoveFirstAtFirstIndex<H>(s: seq<H>, x: H)
    requires x in s
    ensures RemoveFirst(s, x) == s[..FirstIndex(s, x)] + s[FirstIndex(s, x) + 1..]
  {
    var k := FirstIndex(s, x);
    RemoveFirstAt(s, x, k);
  }

  /** As a bag, removing the first occurrence of a present `x` takes away one `x`. */
  lemma {:induction false} RemoveFirstMultiset<H>(s: seq<H>, x: H)
    requires x in s
    ensures multiset(RemoveFirst(s, x)) == multiset(s) - multiset{x}
  {
    var k := FirstIndex(s, x);
    RemoveFirstAt(s, x, k);
    assert s == s[..k] + [x] + s[k + 1..];
  }

  /** `connect`: the socket is appended at the end, even when it is already registered. */
  function Connect<H>(m: Manager<H>, h: H): (r: Manager<H>)
    ensures |r.connections| == |m.connections| + 1
    ensures r.connections[..|m.connections|] == m.connections
    ensures r.connections[|m.connections|] == h
    ensures multiset(r.connections)[h] == multiset(m.connections)[h] + 1
    ensures r.progress == m.progress
  {
    m.(connections := m.connections + [h])
  }

  /** `disconnect`: the first occurrence of the socket is removed; an unknown socket changes nothing. */
  function Disconnect<H(==)>(m: Manager<H>, h: H): (r: Manager<H>)
    ensures h !in m.connections ==> r == m
    ensures h in m.connections ==>
              && |r.connections| == |m.connections| - 1
              && multiset(r.connections) == multiset(m.connections) - multiset{h}
              && var i := FirstIndex(m.connections, h);
                 r.connections == m.connections[..i] + m.connections[i + 1..]
    ensures r.progress == m.progress
  {
    if h in m.connections then
      RemoveFirstAtFirstIndex(m.connections, h);
      RemoveFirstMultiset(m.connections, h);
      m.(connections := RemoveFirst(m.connections, h))
    else
      m
  }

  /** Removing the first occurrence from a concatenation whose first part holds `x` only
      touches that part. */
  lemma {:induction false} RemoveFirstAppendPresent<H>(s: seq<H>, t: seq<H>, x: H)
    requires x in s
    ensures RemoveFirst(s + t, x) == RemoveFirst(s, x) + t
  {
    var k := FirstIndex(s, x);
    var st := s + t;
    assert st[..k] == s[..k];
    RemoveFirstAt(st, x, k);
    RemoveFirstAt(s, x, k);
    assert st[k + 1..] == s[k + 1..] + t;
  }

  /** When the first part of a concatenation lacks `x`, the removal happens in the second. */
  lemma {:induction false} RemoveFirstAppendAbsent<H>(s: seq<H>, t: seq<H>, x: H)
    requires x !in s
    ensures RemoveFirst(s + t, x) == s + RemoveFirst(t, x)
  {
    var st := s + t;
    if x in t {
      var k := FirstIndex(t, x);
      assert st[..|s| + k] == s + t[..k];
      assert st[|s| + k] == x;
      RemoveFirstAt(st, x, |s| + k);
      RemoveFirstAt(t, x, k);
      assert st[|s| + k + 1..] == t[k + 1..];
    } else {
      assert x !in st;
    }
  }

  /** Disconnecting a socket right after connecting it restores the registry when the socket
      was new; when it was already registered, its older entry goes and the new one stays. */
  lemma {:induction false} DisconnectAfterConnect<H>(m: Manager<H>, h: H)
    ensures h !in m.connections ==> Disconnect(Connect(m, h), h) == m
    ensures h in m.connections ==>
              Disconnect(Connect(m, h), h).connections == RemoveFirst(m.connections, h) + [h]
  {
    if h in m.connections {
      RemoveFirstAppendPresent(m.connections, [h], h);
    } else {
      RemoveFirstAppendAbsent(m.connections, [h], h);
      assert RemoveFirst([h], h) == [];
    }
  }

  /** `send_personal_message`: one attempt to send `text` to `h`; a failed send is swallowed
      and the socket is disconnected, a successful one leaves the registry as it was. The
      caller learns nothing either way. */
  function SendPersonalMessage<H(==)>(m: Manager<H>, text: string, h: H, ok: bool): (r: BroadcastResult<H>)
    ensures r.sends == [Send(h, text, ok)]
    ensures ok ==> r.manager == m
    ensures !ok ==> r.manager == Disconnect(m, h)
    ensures r.manager.progress == m.progress
  {
    BroadcastResult(if ok then m else Disconnect(m, h), [Send(h, text, ok)])
  }

  /** The entries whose send succeeded, in registry order. */
  function Kept<H>(conns: seq<H>, outcomes: seq<bool>): (r: seq<H>)
    requires |outcomes| == |conns|
    ensures |r| <= |conns|
  {
    if conns == [] then []
    else (if outcomes[0] then [conns[0]] else []) + Kept(conns[1..], outcomes[1..])
  }

  /** The first loop of `broadcast`: one attempt per entry, in order; a failure is noted in
      `failed` and the loop carries on with the next entry. */
  function SendLoop<H>(conns: seq<H>, text: string, outcomes: seq<bool>): (r: Round<H>)
    requires |outcomes| == |conns|
    ensures |r.sends| == |conns|
    ensures forall i :: 0 <= i < |conns| ==> r.sends[i] == Send(conns[i], text, outcomes[i])
    ensures multiset(r.failed) + multiset(Kept(conns, outcomes)) == multiset(conns)
  {
    if conns == [] then Round([], [])
    else
      var rest := SendLoop(conns[1..], text, outcomes[1..]);
      assert conns == [conns[0]] + conns[1..];
      Round([Send(conns[0], text, outcomes[0])] + rest.sends,
            (if outcomes[0] then [] else [conns[0]]) + rest.failed)
  }

  /** The second loop of `broadcast`: `disconnect` each failed socket in turn. */
  function DisconnectEach<H(==)>(conns: seq<H>, failed: seq<H>): (r: seq<H>)
    ensures |conns| - |failed| <= |r| <= |conns|
    ensures failed == [] ==> r == conns
    decreases |failed|
  {
    if failed == [] then conns else DisconnectEach(RemoveFirst(conns, failed[0]), failed[1..])
  }

  /** The pruning loop never adds a socket: whatever is asked to go, the result is a
      sub-multiset of the registry it started from. */
  lemma {:induction false} DisconnectEachSubMultiset<H>(conns: seq<H>, failed: seq<H>)
    ensures multiset(DisconnectEach(conns, failed)) <= multiset(conns)
    decreases |failed|
  {
    if failed != [] {
      var rest := RemoveFirst(conns, failed[0]);
      if failed[0] in conns {
        RemoveFirstMultiset(conns, failed[0]);
      }
      DisconnectEachSubMultiset(rest, failed[1..]);
    }
  }

  /** Removing, one occurrence at a time, sockets that are all present removes exactly them. */
  lemma {:induction false} DisconnectEachMultiset<H>(conns: seq<H>, failed: seq<H>)
    requires multiset(failed) <= multiset(conns)
    ensures multiset(DisconnectEach(conns, failed)) == multiset(conns) - multiset(failed)
    decreases |failed|
  {
    if failed != [] {
      var f := failed[0];
      assert failed == [f] + failed[1..];
      assert f in multiset(conns);
      var rest := RemoveFirst(conns, f);
      RemoveFirstMultiset(conns, f);
      assert multiset(failed[1..]) <= multiset(rest);
      DisconnectEachMultiset(rest, failed[1..]);
    }
  }

  /** `broadcast`: every registered socket gets exactly one attempt, in registry order, whatever
      happened to the earlier ones; afterwards the registry holds exactly the entries whose send
      succeeded (as a multiset) and the progress store is untouched. */
  function Broadcast<H(==)>(m: Manager<H>, text: string, outcomes: seq<bool>): (r: BroadcastResult<H>)
    requires |outcomes| == |m.connections|
    ensures |r.sends| == |m.connections|
    ensures forall i :: 0 <= i < |r.sends| ==> r.sends[i] == Send(m.connections[i], text, outcomes[i])
    ensures multiset(r.manager.connections) == multiset(Kept(m.connections, outcomes))
    ensures r.manager.progress == m.progress
  {
    var round := SendLoop(m.connections, text, outcomes);
    DisconnectEachMultiset(m.connections, round.failed);
    BroadcastResult(m.(connections := DisconnectEach(m.connections, round.failed)), round.sends)
  }

  /** The entries of `s` that are not in `xs`, in order. */
  function FilterOut<H>(s: seq<H>, xs: set<H>): (r: seq<H>)
  {
    if s == [] then [] else (if s[0] in xs then [] else [s[0]]) + FilterOut(s[1..], xs)
  }

  lemma {:induction false} FilterOutCons<H>(x: H, t: seq<H>, xs: set<H>)
    ensures FilterOut([x] + t, xs) == (if x in xs then [] else [x]) + FilterOut(t, xs)
  {
    assert ([x] + t)[1..] == t;
  }

  lemma {:induction false} FilterOutSubset<H>(s: seq<H>, xs: set<H>)
    ensures forall i :: 0 <= i < |FilterOut(s, xs)| ==> FilterOut(s, xs)[i] in s && FilterOut(s, xs)[i] !in xs
  {
    if s != [] {
      FilterOutSubset(s[1..], xs);
    }
  }

  lemma {:induction false} FilterOutDistinct<H>(s: seq<H>, xs: set<H>)
    requires Distinct(s)
    ensures Distinct(FilterOut(s, xs))
  {
    if s != [] {
      FilterOutDistinct(s[1..], xs);
      FilterOutSubset(s[1..], xs);
      assert s[0] !in s[1..];
    }
  }

  /** Filtering ignores values the sequence does not hold. */
  lemma {:induction false} FilterOutAbsent<H>(s: seq<H>, xs: set<H>, x: H)
    requires x !in s
    ensures FilterOut(s, xs + {x}) == FilterOut(s, xs)
  {
    if s != [] {
      FilterOutAbsent(s[1..], xs, x);
    }
  }

  lemma {:induction false} FilterOutEmpty<H>(s: seq<H>)
    ensures FilterOut(s, {}) == s
  {
    if s != [] {
      FilterOutEmpty(s[1..]);
      assert s == [s[0]] + s[1..];
    }
  }

  /** Filtering twice is filtering once by the union. */
  lemma {:induction false} FilterOutTwice<H>(s: seq<H>, xs: set<H>, ys: set<H>)
    ensures FilterOut(FilterOut(s, xs), ys) == FilterOut(s, xs + ys)
  {
    if s != [] {
      FilterOutTwice(s[1..], xs, ys);
      if s[0] !in xs {
        FilterOutCons(s[0], FilterOut(s[1..], xs), ys);
      } else {
        assert FilterOut(s, xs) == FilterOut(s[1..], xs);
      }
    }
  }

  /** In a list without duplicates, removing the first occurrence removes every occurrence. */
  lemma {:induction false} RemoveFirstDistinct<H>(s: seq<H>, x: H)
    requires Distinct(s)
    ensures RemoveFirst(s, x) == FilterOut(s, {x})
  {
    if s != [] {
      assert Distinct(s[1..]);
      if s[0] == x {
        assert x !in s[1..];
        FilterOutAbsent(s[1..], {}, x);
        FilterOutEmpty(s[1..]);
        assert {} + {x} == {x};
      } else {
        RemoveFirstDistinct(s[1..], x);
      }
    }
  }

  /** In a list without duplicates, disconnecting each of `failed` filters them all out. */
  lemma {:induction false} DisconnectEachDistinct<H>(conns: seq<H>, failed: seq<H>)
    requires Distinct(conns)
    ensures DisconnectEach(conns, failed) == FilterOut(conns, set x | x in failed)
    decreases |failed|
  {
    if failed == [] {
      FilterOutEmpty(conns);
      assert (set x | x in failed) == {};
    } else {
      RemoveFirstDistinct(conns, failed[0]);
      FilterOutDistinct(conns, {failed[0]});
      DisconnectEachDistinct(FilterOut(conns, {failed[0]}), failed[1..]);
      FilterOutTwice(conns, {failed[0]}, set x | x in failed[1..]);
      assert {failed[0]} + (set x | x in failed[1..]) == set x | x in failed;
    }
  }

  /** The sockets noted as failed all come from the list sent to. */
  lemma {:induction false} FailedAreEntries<H>(conns: seq<H>, text: string, outcomes: seq<bool>)
    requires |outcomes| == |conns|
    ensures forall x :: x in SendLoop(conns, text, outcomes).failed ==> x in conns
  {
    var f := SendLoop(conns, text, outcomes).failed;
    forall x | x in f
      ensures x in conns
    {
      assert x in multiset(f);
      assert x in multiset(conns);
    }
  }

  /** Over distinct entries, the failed ones filtered out leave exactly the successful ones. */
  lemma {:induction false} FailedFilterDistinct<H>(conns: seq<H>, text: string, outcomes: seq<bool>)
    requires |outcomes| == |conns| && Distinct(conns)
    ensures FilterOut(conns, set x | x in SendLoop(conns, text, outcomes).failed) == Kept(conns, outcomes)
  {
    if conns != [] {
      var c := conns[0];
      var tail := conns[1..];
      var restFailed := SendLoop(tail, text, outcomes[1..]).failed;
      var restSet := set x | x in restFailed;
      assert Distinct(tail);
      assert c !in tail;
      FailedAreEntries(tail, text, outcomes[1..]);
      assert c !in restSet;
      FailedFilterDistinct(tail, text, outcomes[1..]);
      var allFailed := SendLoop(conns, text, outcomes).failed;
      assert allFailed == (if outcomes[0] then [] else [c]) + restFailed;
      if outcomes[0] {
        assert allFailed == restFailed;
      } else {
        assert allFailed == [c] + restFailed;
        ElementsOfCons(c, restFailed);
        FilterOutAbsent(tail, restSet, c);
      }
    }
  }

  lemma {:induction false} ElementsOfCons<H>(c: H, t: seq<H>)
    ensures (set x | x in [c] + t) == (set x | x in t) + {c}
  {
    assert forall x :: x in [c] + t <==> x == c || x in t;
  }

  /** Over distinct sockets, `broadcast` leaves exactly the sockets whose send succeeded, in
      their original relative order. */
  lemma {:induction false} BroadcastDistinct<H>(m: Manager<H>, text: string, outcomes: seq<bool>)
    requires |outcomes| == |m.connections| && Distinct(m.connections)
    ensures Broadcast(m, text, outcomes).manager.connections == Kept(m.connections, outcomes)
    ensures Distinct(Broadcast(m, text, outcomes).manager.connections)
  {
    var round := SendLoop(m.connections, text, outcomes);
    DisconnectEachDistinct(m.connections, round.failed);
    FailedFilterDistinct(m.connections, text, outcomes);
    FilterOutDistinct(m.connections, set x | x in round.failed);
  }

  /** Three live sockets, the middle send raises: all three were attempted, the first and last
      received the text, and the registry keeps the first and last. */
  lemma {:induction false} BroadcastScenario<H>(m: Manager<H>, a: H, b: H, c: H, text: string, outcomes: seq<bool>)
    requires m.connections == [a, b, c] && a != b && b != c && a != c
    requires outcomes == [true, false, true]
    ensures Broadcast(m, text, outcomes).sends
            == [Send(a, text, true), Send(b, text, false), Send(c, text, true)]
    ensures Broadcast(m, text, outcomes).manager.connections == [a, c]
  {
    ScenarioSends(m, a, b, c, text, outcomes);
    ScenarioConnections(m, a, b, c, text, outcomes);
  }

  lemma {:induction false} ScenarioConnections<H>(m: Manager<H>, a: H, b: H, c: H, text: string, outcomes: seq<bool>)
    requires m.connections == [a, b, c] && a != b && b != c && a != c
    requires outcomes == [true, false, true]
    ensures Broadcast(m, text, outcomes).manager.connections == [a, c]
  {
    assert Distinct(m.connections) by {
      forall i, j | 0 <= i < j < 3
        ensures m.connections[i] != m.connections[j]
      {
      }
    }
    BroadcastDistinct(m, text, outcomes);
    KeptScenario(a, b, c);
  }

  lemma {:induction false} ScenarioSends<H>(m: Manager<H>, a: H, b: H, c: H, text: string, outcomes: seq<bool>)
    requires m.connections == [a, b, c] && outcomes == [true, false, true]
    ensures Broadcast(m, text, outcomes).sends
            == [Send(a, text, true), Send(b, text, false), Send(c, text, true)]
  {
    var r := Broadcast(m, text, outcomes).sends;
    ThreeElements(r, Send(a, text, true), Send(b, text, false), Send(c, text, true));
  }

  lemma {:induction false} ThreeElements<T>(r: seq<T>, x: T, y: T, z: T)
    requires |r| == 3 && r[0] == x && r[1] == y && r[2] == z
    ensures r == [x, y, z]
  {
  }

  lemma {:induction false} KeptScenario<H>(a: H, b: H, c: H)
    ensures Kept([a, b, c], [true, false, true]) == [a, c]
  {
    assert [a, b, c][1..] == [b, c] && [true, false, true][1..] == [false, true];
    assert [b, c][1..] == [c] && [false, true][1..] == [true];
    assert Kept([c], [true]) == [c];
    assert Kept([b, c], [false, true]) == [c];
  }

  /** With the same socket registered twice, survivors need not keep their relative order:
      the failed second copy of `a` is pruned by removing the FIRST copy. */
  lemma {:induction false} BroadcastReordersDuplicates<H>(a: H, b: H, text: string)
    requires a != b
    ensures Broadcast(Manager([a, b, a], map[]), text, [true, true, false]).manager.connections == [b, a]
    ensures Kept([a, b, a], [true, true, false]) == [a, b]
  {
    DuplicateFailed(a, b, text);
    assert RemoveFirst([a, b, a], a) == [b, a];
    assert DisconnectEach([a, b, a], [a]) == DisconnectEach([b, a], []);
    DuplicateKept(a, b);
  }

  lemma {:induction false} DuplicateFailed<H>(a: H, b: H, text: string)
    ensures SendLoop([a, b, a], text, [true, true, false]).failed == [a]
  {
    assert [a, b, a][1..] == [b, a] && [true, true, false][1..] == [true, false];
    assert [b, a][1..] == [a] && [true, false][1..] == [false];
    assert [a][1..] == [] && [false][1..] == [];
    assert SendLoop([a], text, [false]).failed == [a];
    assert SendLoop([b, a], text, [true, false]).failed == [a];
  }

  lemma {:induction false} DuplicateKept<H>(a: H, b: H)
    ensures Kept([a, b, a], [true, true, false]) == [a, b]
  {
    assert [a, b, a][1..] == [b, a] && [true, true, false][1..] == [true, false];
    assert [b, a][1..] == [a] && [true, false][1..] == [false];
    assert Kept([a], [false]) == [];
    assert Kept([b, a], [true, false]) == [b];
  }

  /** In an object whose keys are pairwise distinct, every field is found by its key. */
  lemma {:induction false} GetDistinctKeys(fields: seq<(string, Json)>)
    requires forall i, j :: 0 <= i < j < |fields| ==> fields[i].0 != fields[j].0
    ensures forall i :: 0 <= i < |fields| ==> Get(fields, fields[i].0) == Some(fields[i].1)
  {
    if fields != [] {
      GetDistinctKeys(fields[1..]);
      forall i | 1 <= i < |fields|
        ensures Get(fields, fields[i].0) == Some(fields[i].1)
      {
        assert fields[1..][i - 1] == fields[i];
      }
    }
  }

  /** The JSON message `broadcast_progress` encodes. */
  function ProgressMessage(generationId: int, data: Payload): (msg: Json)
    ensures msg.JObj? && |msg.fields| == 3
    ensures Get(msg.fields, "type") == Some(JStr("progress"))
    ensures Get(msg.fields, "generationId") == Some(JNum(generationId))
    ensures Get(msg.fields, "data") == Some(JObj(data))
  {
    assert "generationId" != "type" && "data" != "type" && "data" != "generationId";
    var f := [("type", JStr("progress")), ("generationId", JNum(generationId)), ("data", JObj(data))];
    assert Get(f, "data") == Get(f[1..], "data") == Get(f[2..], "data");
    JObj(f)
  }

  /** `broadcast(json.dumps(message))`, the step both progress broadcasts end with: one send
      of the serialised message per registered socket, in registry order, then the pruning. */
  function BroadcastJson<H(==)>(m: Manager<H>, message: Json, dumps: Json -> string, outcomes: seq<bool>)
    : (r: BroadcastResult<H>)
    requires |outcomes| == |m.connections|
    ensures |r.sends| == |m.connections|
    ensures forall i :: 0 <= i < |r.sends| ==> r.sends[i].to == m.connections[i] && r.sends[i].text == dumps(message)
    ensures multiset(r.manager.connections) == multiset(Kept(m.connections, outcomes))
    ensures r.manager.progress == m.progress
  {
    Broadcast(m, dumps(message), outcomes)
  }

  /** `broadcast_progress`: broadcasts the serialised progress message; `dumps` is `json.dumps`. */
  function BroadcastProgress<H(==)>(m: Manager<H>, generationId: int, data: Payload,
                                    dumps: Json -> string, outcomes: seq<bool>): (r: BroadcastResult<H>)
    requires |outcomes| == |m.connections|
    ensures |r.sends| == |m.connections|
    ensures forall i :: 0 <= i < |r.sends| ==>
              && r.sends[i].to == m.connections[i]
              && r.sends[i].text == dumps(ProgressMessage(generationId, data))
    ensures multiset(r.manager.connections) == multiset(Kept(m.connections, outcomes))
    ensures r.manager.progress == m.progress
  {
    BroadcastJson(m, ProgressMessage(generationId, data), dumps, outcomes)
  }

  /** The JSON message `broadcast_setup_progress` encodes; the event-loop clock is a parameter. */
  function SetupProgressMessage(serverId: int, step: int, totalSteps: int, message: string,
                                timestamp: Json): (msg: Json)
    ensures msg.JObj? && |msg.fields| == 6
    ensures Get(msg.fields, "type") == Some(JStr("setup_progress"))
    ensures Get(msg.fields, "serverId") == Some(JNum(serverId))
    ensures Get(msg.fields, "step") == Some(JNum(step))
    ensures Get(msg.fields, "totalSteps") == Some(JNum(totalSteps))
    ensures Get(msg.fields, "message") == Some(JStr(message))
    ensures Get(msg.fields, "timestamp") == Some(timestamp)
  {
    var f := [("type", JStr("setup_progress")), ("serverId", JNum(serverId)), ("step", JNum(step)),
              ("totalSteps", JNum(totalSteps)), ("message", JStr(message)), ("timestamp", timestamp)];
    GetDistinctKeys(f);
    assert Get(f, f[0].0) == Some(f[0].1) && Get(f, f[1].0) == Some(f[1].1);
    assert Get(f, f[2].0) == Some(f[2].1) && Get(f, f[3].0) == Some(f[3].1);
    assert Get(f, f[4].0) == Some(f[4].1) && Get(f, f[5].0) == Some(f[5].1);
    JObj(f)
  }

  /** `broadcast_setup_progress`: the same broadcast as for generation progress, with the
      setup message. */
  function BroadcastSetupProgress<H(==)>(m: Manager<H>, serverId: int, step: int, totalSteps: int,
                                         message: string, timestamp: Json, dumps: Json -> string,
                                         outcomes: seq<bool>): (r: BroadcastResult<H>)
    requires |outcomes| == |m.connections|
    ensures |r.sends| == |m.connections|
    ensures forall i :: 0 <= i < |r.sends| ==>
              && r.sends[i].to == m.connections[i]
              && r.sends[i].text == dumps(SetupProgressMessage(serverId, step, totalSteps, message, timestamp))
    ensures multiset(r.manager.connections) == multiset(Kept(m.connections, outcomes))
    ensures r.manager.progress == m.progress
  {
    BroadcastJson(m, SetupProgressMessage(serverId, step, totalSteps, message, timestamp), dumps, outcomes)
  }

  /** `get_progress`: the stored data, or `{}` for an unknown generation. */
  function GetProgress<H>(m: Manager<H>, generationId: int): (r: Payload)
    ensures generationId in m.progress ==> r == m.progress[generationId]
    ensures generationId !in m.progress ==> r == []
  {
    if generationId in m.progress then m.progress[generationId] else []
  }

  /** `store_progress`: last write wins for that generation; every other generation and the
      socket list are unchanged. */
  function StoreProgress<H>(m: Manager<H>, generationId: int, data: Payload): (r: Manager<H>)
    ensures GetProgress(r, generationId) == data
    ensures r.progress.Keys == m.progress.Keys + {generationId}
    ensures forall g :: g != generationId ==> GetProgress(r, g) == GetProgress(m, g)
    ensures r.connections == m.connections
  {
    m.(progress := m.progress[generationId := data])
  }

  /** `clear_progress`: only that generation is forgotten; absent ones are a no-op. */
  function ClearProgress<H>(m: Manager<H>, generationId: int): (r: Manager<H>)
    ensures generationId !in r.progress
    ensures r.progress.Keys == m.progress.Keys - {generationId}
    ensures forall g :: g != generationId ==> GetProgress(r, g) == GetProgress(m, g)
    ensures generationId !in m.progress ==> r == m
    ensures r.connections == m.connections
  {
    if generationId in m.progress then m.(progress := m.progress - {generationId}) else m
  }

  /** Two writes to the same generation: the later one is what `get_progress` returns, and
      clearing afterwards forgets both. */
  lemma LastWriteWins<H>(m: Manager<H>, generationId: int, a: Payload, b: Payload)
    ensures GetProgress(StoreProgress(StoreProgress(m, generationId, a), generationId, b), generationId) == b
    ensures GetProgress(ClearProgress(StoreProgress(m, generationId, a), generationId), generationId) == []
  {
  }
}

=== FILE: workflows.dfy ===
/** The ComfyUI workflow handlers: deleting a workflow with its models, extracting checkpoint
    models from a workflow's JSON and synchronising them into `comfy_models`, and the fallback
    applied to JSON columns that arrive as text. `json.loads` is the oracle `parse`, which
    answers `None` when it would raise. */
module Workflows {
  import opened Wrappers
  import opened Json
  import opened Strings
  import opened Tables

  const WorkflowNotFound: HttpError := HttpError(404, "Workflow not found")
  const DeletedMessage: string := "Workflow deleted successfully"

  /** `DELETE FROM comfy_models WHERE workflow_id = $1`. */
  function DeleteModelsOf(models: seq<ModelRow>, id: int): (r: seq<ModelRow>)
    ensures forall i :: 0 <= i < |r| ==> r[i] in models && r[i].workflowId != id
    ensures forall i :: 0 <= i < |models| && models[i].workflowId != id ==> models[i] in r
  {
    if models == [] then []
    else (if models[0].workflowId == id then [] else [models[0]]) + DeleteModelsOf(models[1..], id)
  }

  /** `DELETE FROM comfy_workflows WHERE id = $1`: the remaining rows and the row count. */
  function DeleteWorkflowRows(workflows: seq<Workflow>, id: int): (r: (seq<Workflow>, nat))
    ensures r.1 == |workflows| - |r.0|
    ensures r.1 == 0 <==> forall i :: 0 <= i < |workflows| ==> workflows[i].id != id
    ensures forall i :: 0 <= i < |r.0| ==> r.0[i] in workflows && r.0[i].id != id
    ensures forall i :: 0 <= i < |workflows| && workflows[i].id != id ==> workflows[i] in r.0
  {
    if workflows == [] then ([], 0)
    else
      var (rest, n) := DeleteWorkflowRows(workflows[1..], id);
      if workflows[0].id == id then (rest, n + 1) else ([workflows[0]] + rest, n)
  }

  /** Both statements of `delete_workflow`, models first; each is committed whatever follows. */
  function DeleteStatements(db: Db, id: int): (r: (Db, nat))
    ensures forall i :: 0 <= i < |r.0.models| ==> r.0.models[i].workflowId != id
    ensures forall i :: 0 <= i < |r.0.workflows| ==> r.0.workflows[i].id != id
    ensures r.1 == 0 <==> forall i :: 0 <= i < |db.workflows| ==> db.workflows[i].id != id
    ensures forall i :: 0 <= i < |db.workflows| && db.workflows[i].id != id ==> db.workflows[i] in r.0.workflows
    ensures forall i :: 0 <= i < |db.models| && db.models[i].workflowId != id ==> db.models[i] in r.0.models
    ensures forall i :: 0 <= i < |r.0.workflows| ==> r.0.workflows[i] in db.workflows
    ensures forall i :: 0 <= i < |r.0.models| ==> r.0.models[i] in db.models
    ensures r.0.users == db.users && r.0.platforms == db.platforms
  {
    var (workflows, n) := DeleteWorkflowRows(db.workflows, id);
    (db.(models := DeleteModelsOf(db.models, id), workflows := workflows), n)
  }

  /** `delete_workflow` of routes.py: 404 exactly when no workflow row was deleted, decided after
      the commit, so the workflow's models are gone even on the 404 path. */
  function DeleteWorkflow(db: Db, id: int): (r: (Reply<string>, Db))
    ensures r.0.Err? <==> forall i :: 0 <= i < |db.workflows| ==> db.workflows[i].id != id
    ensures r.0.Err? ==> r.0.error == WorkflowNotFound
    ensures r.0.Ok? ==> r.0.value == DeletedMessage
    ensures forall i :: 0 <= i < |r.1.workflows| ==> r.1.workflows[i].id != id
    ensures forall i :: 0 <= i < |db.workflows| && db.workflows[i].id != id ==> db.workflows[i] in r.1.workflows
    ensures forall i :: 0 <= i < |r.1.models| ==> r.1.models[i].workflowId != id
    ensures forall i :: 0 <= i < |db.models| && db.models[i].workflowId != id ==> db.models[i] in r.1.models
    ensures forall i :: 0 <= i < |r.1.workflows| ==> r.1.workflows[i] in db.workflows
    ensures forall i :: 0 <= i < |r.1.models| ==> r.1.models[i] in db.models
    ensures r.1.users == db.users && r.1.platforms == db.platforms
  {
    var (db', n) := DeleteStatements(db, id);
    if n == 0 then (Err(WorkflowNotFound), db') else (Ok(DeletedMessage), db')
  }

  /** The status string asyncpg's `execute` returns for a DELETE of `n` rows. */
  function DeleteTag(n: nat): string {
    "DELETE " + NatToString(n)
  }

  /** `delete_workflow` of fastapi_server.py decides on the status string `"DELETE 0"` instead of
      a row count; it reaches the same outcome, and releases its connection in `finally`. */
  function FastapiDeleteWorkflow(p: Pool, db: Db, id: int): (r: (Reply<string>, Db, Pool))
    ensures (r.0, r.1) == DeleteWorkflow(db, id)
    ensures r.2.inUse == p.inUse
  {
    var held := Acquire(p);
    var (db', n) := DeleteStatements(db, id);
    NatToStringZero(n);
    assert DeleteTag(n) == "DELETE 0" <==> NatToString(n) == "0" by {
      assert DeleteTag(n)[..7] == "DELETE ";
      assert DeleteTag(n)[7..] == NatToString(n);
    }
    if DeleteTag(n) == "DELETE 0" then (Err(WorkflowNotFound), db', Release(held))
    else (Ok(DeletedMessage), db', Release(held))
  }

  /** One element of `models_found`. */
  datatype ModelRecord = ModelRecord(name: Json, kind: string, required: bool)

  function Checkpoint(name: Json): ModelRecord {
    ModelRecord(name, "checkpoint", true)
  }

  /** The loop body for one node: `if 'inputs' in node and 'ckpt_name' in node['inputs']`. The
      Python operators raise on values of the wrong shape, which aborts the whole extraction. */
  function NodeModels(node: Json): (r: Result<seq<ModelRecord>, PyError>)
    ensures r.Ok? ==> |r.value| <= 1
    ensures node.JObj? && Get(node.fields, "inputs").None? ==> r == Ok([])
    ensures node.JObj? && Get(node.fields, "inputs").Some? && Get(node.fields, "inputs").value.JObj? ==>
              var inputs := Get(node.fields, "inputs").value.fields;
              r == if Get(inputs, "ckpt_name").Some? then Ok([Checkpoint(Get(inputs, "ckpt_name").value)]) else Ok([])
    ensures node.JNull? || node.JBool? || node.JNum? ==> r.Err?
  {
    var hasInputs :- PyContains(node, "inputs");
    if !hasInputs then Ok([])
    else
      var inputs :- PyIndex(node, "inputs");
      var hasCheckpoint :- PyContains(inputs, "ckpt_name");
      if !hasCheckpoint then Ok([])
      else
        var name :- PyIndex(inputs, "ckpt_name");
        Ok([Checkpoint(name)])
  }

  /** The loop over the nodes, in order; the first node that raises aborts the loop. */
  function ExtractNodes(nodes: seq<Json>): (r: Result<seq<ModelRecord>, PyError>)
    ensures r.Ok? ==> |r.value| <= |nodes|
    ensures r.Ok? ==> forall i :: 0 <= i < |r.value| ==> r.value[i].kind == "checkpoint" && r.value[i].required
  {
    if nodes == [] then Ok([])
    else
      var first :- NodeModels(nodes[0]);
      var rest :- ExtractNodes(nodes[1..]);
      assert forall i :: 0 <= i < |first| ==> first[i].kind == "checkpoint" && first[i].required by {
        if first != [] {
          var inputs := PyIndex(nodes[0], "inputs").value;
          assert first == [Checkpoint(PyIndex(inputs, "ckpt_name").value)];
        }
      }
      Ok(first + rest)
  }

  /** Sequencing two extraction steps: the first error wins, otherwise the records concatenate. */
  function Then(x: Result<seq<ModelRecord>, PyError>, y: Result<seq<ModelRecord>, PyError>)
    : Result<seq<ModelRecord>, PyError>
  {
    if x.Err? then x else if y.Err? then y else Ok(x.value + y.value)
  }

  lemma {:induction false} ThenAssociative(x: Result<seq<ModelRecord>, PyError>, y: Result<seq<ModelRecord>, PyError>,
                        z: Result<seq<ModelRecord>, PyError>)
    ensures Then(x, Then(y, z)) == Then(Then(x, y), z)
  {
    if x.Ok? && y.Ok? && z.Ok? {
      assert x.value + (y.value + z.value) == (x.value + y.value) + z.value;
    }
  }

  lemma {:induction false} ExtractNodesCons(nodes: seq<Json>)
    requires nodes != []
    ensures ExtractNodes(nodes) == Then(NodeModels(nodes[0]), ExtractNodes(nodes[1..]))
  {
  }

  /** Extraction over two runs of nodes is the extraction of the first run followed by that of
      the second: records come out in node order, and an error in an earlier node wins. */
  lemma {:induction false} ExtractNodesAppend(a: seq<Json>, b: seq<Json>)
    ensures ExtractNodes(a + b) == Then(ExtractNodes(a), ExtractNodes(b))
  {
    if a == [] {
      assert a + b == b;
      if ExtractNodes(b).Ok? {
        assert [] + ExtractNodes(b).value == ExtractNodes(b).value;
      }
    } else {
      assert (a + b)[0] == a[0];
      assert (a + b)[1..] == a[1..] + b;
      ExtractNodesCons(a + b);
      ExtractNodesCons(a);
      ExtractNodesAppend(a[1..], b);
      ThenAssociative(NodeModels(a[0]), ExtractNodes(a[1..]), ExtractNodes(b));
    }
  }

  /** The extraction in `sync_workflow_models`: without a `nodes` key there are no models;
      otherwise one checkpoint record per node whose inputs name a checkpoint. */
  function ExtractModels(data: Json): (r: Result<seq<ModelRecord>, PyError>)
    ensures data.JObj? && Get(data.fields, "nodes").None? ==> r == Ok([])
    ensures data.JObj? && Get(data.fields, "nodes").Some? && Get(data.fields, "nodes").value.JArr? ==>
              r == ExtractNodes(Get(data.fields, "nodes").value.items)
    ensures r.Ok? ==> forall i :: 0 <= i < |r.value| ==> r.value[i].kind == "checkpoint" && r.value[i].required
    ensures data.JNull? || data.JBool? || data.JNum? ==> r.Err?
  {
    var hasNodes :- PyContains(data, "nodes");
    if !hasNodes then Ok([])
    else
      var nodes :- PyIndex(data, "nodes");
      var items :- PyIter(nodes);
      ExtractNodes(items)
  }

  /** Whether `comfy_models` already has a row for this workflow and model name. */
  predicate HasModel(rows: seq<ModelRow>, workflowId: int, name: Json) {
    exists i :: 0 <= i < |rows| && rows[i].workflowId == workflowId && rows[i].name == name
  }

  ghost predicate UniqueModelKeys(rows: seq<ModelRow>) {
    forall i, j :: 0 <= i < j < |rows| ==>
      rows[i].workflowId != rows[j].workflowId || rows[i].name != rows[j].name
  }

  /** The row inserted for a record: `type` and `is_required` come from the record. */
  function RowOf(workflowId: int, m: ModelRecord): ModelRow {
    ModelRow(workflowId, m.name, m.kind, m.required)
  }

  /** One `INSERT ... ON CONFLICT (workflow_id, name) DO NOTHING`: a row is appended only when
      the key is new, so the key stays unique and the name is present afterwards. */
  function InsertModel(rows: seq<ModelRow>, workflowId: int, m: ModelRecord): (r: seq<ModelRow>)
    ensures HasModel(r, workflowId, m.name)
    ensures HasModel(rows, workflowId, m.name) ==> r == rows
    ensures !HasModel(rows, workflowId, m.name) ==> r == rows + [RowOf(workflowId, m)]
    ensures UniqueModelKeys(rows) ==> UniqueModelKeys(r)
  {
    if HasModel(rows, workflowId, m.name) then rows
    else
      var r := rows + [RowOf(workflowId, m)];
      assert r[|rows|].workflowId == workflowId && r[|rows|].name == m.name;
      r
  }

  /** A row present in a prefix is present in the whole table. */
  lemma {:induction false} HasModelInPrefix(rows: seq<ModelRow>, r: seq<ModelRow>, workflowId: int, name: Json)
    requires |rows| <= |r| && r[..|rows|] == rows
    requires HasModel(rows, workflowId, name)
    ensures HasModel(r, workflowId, name)
  {
    var i :| 0 <= i < |rows| && rows[i].workflowId == workflowId && rows[i].name == name;
    assert r[i] == rows[i];
  }

  /** The insert loop over every record found. Old rows stay in place, every record's name ends
      up present for the workflow, each new row is the row of some record whose key the table
      did not have, and the (workflow, name) key stays unique. */
  function InsertModels(rows: seq<ModelRow>, workflowId: int, found: seq<ModelRecord>): (r: seq<ModelRow>)
    ensures |rows| <= |r| <= |rows| + |found|
    ensures r[..|rows|] == rows
    ensures forall k :: 0 <= k < |found| ==> HasModel(r, workflowId, found[k].name)
    ensures forall i :: |rows| <= i < |r| ==> exists k :: 0 <= k < |found| && r[i] == RowOf(workflowId, found[k])
    ensures forall i :: |rows| <= i < |r| ==> !HasModel(rows, workflowId, r[i].name)
    ensures UniqueModelKeys(rows) ==> UniqueModelKeys(r)
    decreases |found|
  {
    if found == [] then rows
    else
      var next := InsertModel(rows, workflowId, found[0]);
      var r := InsertModels(next, workflowId, found[1..]);
      assert r[..|rows|] == rows by {
        assert r[..|next|] == next;
        assert next[..|rows|] == rows;
      }
      HasModelInPrefix(next, r, workflowId, found[0].name);
      forall k | 1 <= k < |found|
        ensures HasModel(r, workflowId, found[k].name)
      {
        assert found[k] == found[1..][k - 1];
      }
      forall i | |rows| <= i < |r|
        ensures exists k :: 0 <= k < |found| && r[i] == RowOf(workflowId, found[k])
        ensures !HasModel(rows, workflowId, r[i].name)
      {
        NewRowOfInsertModels(rows, next, r, workflowId, found, i);
      }
      r
  }

  /** One step of the loop above: a row past the old table came either from the first record's
      insert or from the rest of the loop. */
  lemma {:induction false} NewRowOfInsertModels(rows: seq<ModelRow>, next: seq<ModelRow>, r: seq<ModelRow>,
                                                workflowId: int, found: seq<ModelRecord>, i: int)
    requires found != [] && next == InsertModel(rows, workflowId, found[0])
    requires |next| <= |r| && r[..|next|] == next
    requires forall j :: |next| <= j < |r| ==> exists k :: 0 <= k < |found[1..]| && r[j] == RowOf(workflowId, found[1..][k])
    requires forall j :: |next| <= j < |r| ==> !HasModel(next, workflowId, r[j].name)
    requires |rows| <= i < |r|
    ensures exists k :: 0 <= k < |found| && r[i] == RowOf(workflowId, found[k])
    ensures !HasModel(rows, workflowId, r[i].name)
  {
    if i < |next| {
      assert r[i] == next[i] == RowOf(workflowId, found[0]);
    } else {
      var k :| 0 <= k < |found[1..]| && r[i] == RowOf(workflowId, found[1..][k]);
      assert found[1..][k] == found[k + 1];
      if HasModel(rows, workflowId, r[i].name) {
        assert next[..|rows|] == rows;
        HasModelInPrefix(rows, next, workflowId, r[i].name);
      }
    }
  }

  /** The JSON of a successful sync. */
  datatype SyncReply = SyncReply(message: string, modelsFound: nat, models: seq<ModelRecord>)

  const SyncedMessage: string := "Models synchronized successfully"

  /** The 500 raised when parsing or extracting fails (the text of the Python exception that
      follows the prefix is not modelled). */
  const SyncFailed: HttpError := HttpError(500, "Failed to sync models: ")

  /** The first workflow row with that id (`fetchrow` / `fetchone`). */
  function FindWorkflow(workflows: seq<Workflow>, id: int): (r: Option<Workflow>)
    ensures r.Some? ==> r.value in workflows && r.value.id == id
    ensures r.None? <==> forall i :: 0 <= i < |workflows| ==> workflows[i].id != id
  {
    FindFirst(workflows, (w: Workflow) => w.id == id)
  }

  /** What is handed to `json.loads` once the row is found: `Some(text)`, or `None` when the
      argument is SQL NULL (which makes `json.loads` raise). */
  function SyncFromText(db: Db, id: int, text: Option<string>, parse: string -> Option<Json>)
    : (r: (Reply<SyncReply>, Db))
    ensures r.0.Ok? <==> text.Some? && parse(text.value).Some? && ExtractModels(parse(text.value).value).Ok?
    ensures r.0.Err? ==> r.0.error == SyncFailed && r.1 == db
    ensures r.0.Ok? ==> r.0.value.modelsFound == |r.0.value.models| && r.0.value.message == SyncedMessage
    ensures r.0.Ok? ==> text.Some? && parse(text.value).Some? && ExtractModels(parse(text.value).value) == Ok(r.0.value.models)
    ensures r.0.Ok? ==> r.1 == db.(models := InsertModels(db.models, id, r.0.value.models))
  {
    if text.None? then (Err(SyncFailed), db)
    else match parse(text.value)
      case None => (Err(SyncFailed), db)
      case Some(data) =>
        match ExtractModels(data)
        case Err(_) => (Err(SyncFailed), db)
        case Ok(found) =>
          (Ok(SyncReply(SyncedMessage, |found|, found)), db.(models := InsertModels(db.models, id, found)))
  }

  /** `workflow_row['workflow_json'] or '{}'` (fastapi_server.py): NULL and the empty string
      both become an empty object's text. */
  function TextOrEmptyObject(c: Column): (r: string)
    ensures c.Text? && c.text != "" ==> r == c.text
    ensures c.Null? || c == Text("") ==> r == "{}"
  {
    match c
    case Null => "{}"
    case Text(s) => if s == "" then "{}" else s
  }

  /** `sync_workflow_models` of fastapi_server.py. */
  function FastapiSync(p: Pool, db: Db, id: int, parse: string -> Option<Json>): (r: (Reply<SyncReply>, Db, Pool))
    ensures FindWorkflow(db.workflows, id).None? ==> r.0 == Err(WorkflowNotFound) && r.1 == db
    ensures FindWorkflow(db.workflows, id).Some? ==>
              (r.0, r.1) == SyncFromText(db, id, Some(TextOrEmptyObject(FindWorkflow(db.workflows, id).value.workflowJson)), parse)
    ensures r.2.inUse == p.inUse
  {
    var held := Acquire(p);
    match FindWorkflow(db.workflows, id)
    case None => (Err(WorkflowNotFound), db, Release(held))
    case Some(w) =>
      var (reply, db') := SyncFromText(db, id, Some(TextOrEmptyObject(w.workflowJson)), parse);
      (reply, db', Release(held))
  }

  /** With a conforming `json.loads`, a workflow whose JSON is NULL or empty syncs zero models
      and leaves `comfy_models` as it was. */
  lemma {:induction false} FastapiSyncOfEmptyWorkflow(p: Pool, db: Db, id: int, parse: string -> Option<Json>)
    requires parse("{}") == Some(EmptyObject)
    requires FindWorkflow(db.workflows, id).Some?
    requires FindWorkflow(db.workflows, id).value.workflowJson in {Null, Text("")}
    ensures FastapiSync(p, db, id, parse).0 == Ok(SyncReply(SyncedMessage, 0, []))
    ensures FastapiSync(p, db, id, parse).1 == db
  {
    assert Get([], "nodes").None?;
  }

  /** `sync_workflow_models` of routes.py AS WRITTEN: `workflow.get('workflow_json', '{}')` only
      defaults a missing key, but the row always has that column, so NULL reaches `json.loads`. */
  function RoutesSyncAsWritten(db: Db, id: int, parse: string -> Option<Json>): (r: (Reply<SyncReply>, Db))
    ensures FindWorkflow(db.workflows, id).None? ==> r == (Err(WorkflowNotFound), db)
    ensures FindWorkflow(db.workflows, id).Some? ==>
              var c := FindWorkflow(db.workflows, id).value.workflowJson;
              r == SyncFromText(db, id, if c.Null? then None else Some(c.text), parse)
  {
    match FindWorkflow(db.workflows, id)
    case None => (Err(WorkflowNotFound), db)
    case Some(w) =>
      match w.workflowJson
      case Null => SyncFromText(db, id, None, parse)
      case Text(s) => SyncFromText(db, id, Some(s), parse)
  }

  /** The discrepancy: a workflow stored with NULL JSON gets a 500 from routes.py whatever
      `json.loads` would do with `'{}'`, while fastapi_server.py reports zero models. */
  lemma {:induction false} RoutesSyncRejectsNullJson(db: Db, id: int, parse: string -> Option<Json>)
    requires FindWorkflow(db.workflows, id).Some?
    requires FindWorkflow(db.workflows, id).value.workflowJson == Null
    ensures RoutesSyncAsWritten(db, id, parse) == (Err(SyncFailed), db)
  {
  }

  /** `sync_workflow_models` of routes.py with the evident intent: the column is read as
      `workflow_json or '{}'`, the way fastapi_server.py reads it, so NULL and the empty text
      both default to an empty object. It then agrees with fastapi_server.py on every input. */
  function RoutesSync(db: Db, id: int, parse: string -> Option<Json>): (r: (Reply<SyncReply>, Db))
    ensures forall p: Pool :: r == (FastapiSync(p, db, id, parse).0, FastapiSync(p, db, id, parse).1)
    ensures parse("{}") == Some(EmptyObject) && FindWorkflow(db.workflows, id).Some?
            && FindWorkflow(db.workflows, id).value.workflowJson in {Null, Text("")} ==>
              r == (Ok(SyncReply(SyncedMessage, 0, [])), db)
  {
    match FindWorkflow(db.workflows, id)
    case None => (Err(WorkflowNotFound), db)
    case Some(w) =>
      assert Get([], "nodes").None?;
      SyncFromText(db, id, Some(TextOrEmptyObject(w.workflowJson)), parse)
  }

  /** A row as Python sees it after `dict(row)`: column name to value (a `str` is a `JStr`). */
  type Row = map<string, Json>

  /** `if isinstance(d.get(key), str): try: d[key] = json.loads(d[key]) except: d[key] = []`. */
  function ParseTextField(row: Row, key: string, parse: string -> Option<Json>): (r: Row)
    ensures r.Keys == row.Keys
    ensures forall k :: k in row && k != key ==> r[k] == row[k]
    ensures key in row && row[key].JStr? && parse(row[key].s).None? ==> r[key] == JArr([])
    ensures key in row && row[key].JStr? && parse(row[key].s).Some? ==> r[key] == parse(row[key].s).value
    ensures !(key in row && row[key].JStr?) ==> r == row
  {
    if key in row && row[key].JStr? then
      row[key := match parse(row[key].s) case Some(v) => v case None => JArr([])]
    else row
  }

  /** The same fallback applied to every row of a listing, keeping the rows' order: a text
      field is replaced by its parse, or by `[]` when it does not parse; a field that is
      not text, and every other column, is passed through. */
  function ParseTextFieldInRows(rows: seq<Row>, key: string, parse: string -> Option<Json>): (r: seq<Row>)
    ensures |r| == |rows|
    ensures forall i :: 0 <= i < |rows| ==> r[i].Keys == rows[i].Keys
    ensures forall i :: 0 <= i < |rows| && key in rows[i] && rows[i][key].JStr? && parse(rows[i][key].s).Some? ==>
              r[i][key] == parse(rows[i][key].s).value
    ensures forall i :: 0 <= i < |rows| && key in rows[i] && rows[i][key].JStr? && parse(rows[i][key].s).None? ==>
              r[i][key] == JArr([])
    ensures forall i :: 0 <= i < |rows| && !(key in rows[i] && rows[i][key].JStr?) ==> r[i] == rows[i]
    ensures forall i, k :: 0 <= i < |rows| && k in rows[i] && k != key ==> r[i][k] == rows[i][k]
  {
    seq(|rows|, i requires 0 <= i < |rows| => ParseTextField(rows[i], key, parse))
  }

  /** `get_workflows_with_models` of routes.py: the aggregated `models` column, when it arrives as
      text, is replaced by its parse and falls back to `[]`; any other value is kept. */
  function WorkflowsWithModels(rows: seq<Row>, parse: string -> Option<Json>): (r: seq<Row>)
    ensures |r| == |rows|
    ensures forall i :: 0 <= i < |rows| ==> r[i].Keys == rows[i].Keys
    ensures forall i ::
              (0 <= i < |rows| && "models" in rows[i] && rows[i]["models"].JStr? && parse(rows[i]["models"].s).Some?)
              ==> r[i]["models"] == parse(rows[i]["models"].s).value
    ensures forall i ::
              (0 <= i < |rows| && "models" in rows[i] && rows[i]["models"].JStr? && parse(rows[i]["models"].s).None?)
              ==> r[i]["models"] == JArr([])
    ensures forall i :: 0 <= i < |rows| && !("models" in rows[i] && rows[i]["models"].JStr?) ==> r[i] == rows[i]
    ensures forall i, k :: 0 <= i < |rows| && k in rows[i] && k != "models" ==> r[i][k] == rows[i][k]
  {
    ParseTextFieldInRows(rows, "models", parse)
  }

  /** `get_comfy_generations` (both copies): the same fallback for `image_urls`. */
  function ComfyGenerations(rows: seq<Row>, parse: string -> Option<Json>): (r: seq<Row>)
    ensures |r| == |rows|
    ensures forall i :: 0 <= i < |rows| ==> r[i].Keys == rows[i].Keys
    ensures forall i ::
              (0 <= i < |rows| && "image_urls" in rows[i] && rows[i]["image_urls"].JStr?
               && parse(rows[i]["image_urls"].s).Some?)
              ==> r[i]["image_urls"] == parse(rows[i]["image_urls"].s).value
    ensures forall i ::
              (0 <= i < |rows| && "image_urls" in rows[i] && rows[i]["image_urls"].JStr?
               && parse(rows[i]["image_urls"].s).None?)
              ==> r[i]["image_urls"] == JArr([])
    ensures forall i :: 0 <= i < |rows| && !("image_urls" in rows[i] && rows[i]["image_urls"].JStr?) ==> r[i] == rows[i]
    ensures forall i, k :: 0 <= i < |rows| && k in rows[i] && k != "image_urls" ==> r[i][k] == rows[i][k]
  {
    ParseTextFieldInRows(rows, "image_urls", parse)
  }
}

=== FILE: wrappers.dfy ===
/** Failure-compatible wrappers shared by every module of the model. */
module Wrappers {

  /** A value that may be absent (Python's `None`, a missing row, a failed parse). */
  datatype Option<+T> = None | Some(value: T) {

    /** The wrapped value, or `default` when there is none. */
    function GetOr(default: T): T {
      match this
      case Some(v) => v
      case None => default
    }
  }

  /** Either a value or the error that was raised instead; usable with `:-`. */
  datatype Result<+T, +E> = Ok(value: T) | Err(error: E) {

    predicate IsFailure() {
      Err?
    }

    function PropagateFailure<U>(): Result<U, E>
      requires Err?
    {
      Err(error)
    }

    function Extract(): T
      requires Ok?
    {
      value
    }
  }
}
